=== FILE: README.md ===
# Le Cadeau Noir club bot: state store and command routing

This project is a Dafny model of the two parts of the club bot that hold
its logic. The "## Model" table lists, for each modelled operation, what
its contract or a lemma beside it states. What is not modelled, and each
contract stated weaker than the code, is listed under "## Left out".

- **The state store** (`db.py`, modelled in `db.dfy`). It has three SQLite
  tables:
  - `users`: user id → balance and key flag.
  - `roles`: user id → role name, description and image, each nullable.
  - `history`: an append-only log with AUTOINCREMENT ids.

  Every write is first a function from the old tables to the new ones
  (`Db.ChangeBalanceOp`, `Db.SetRoleOp`, …). Its contract says what the SQL
  statement does. That includes the case where Python's `sqlite3` refuses a
  number outside SQLite's 64-bit INTEGER range and nothing is committed.

  The class `Db.Club` holds the tables as `map` and `seq` fields and updates
  them in place. Each writing method promises `State() == XOp(old(State()), …)`
  and keeps the store invariant `Db.TablesOk`:
  - balances are never negative and fit an INTEGER;
  - the key flag is 0 or 1;
  - history ids are positive and strictly increasing.

  The reads are methods beside the writes:
  - `get_perks` is a loop over the log;
  - the ordered queries (`get_top_users`, `get_key_holders`) are selection
    loops that meet the `ORDER BY` contract.
- **Routing and guards** (`commands.py`, modelled in `commands.dfy`).
  - `Commands.Route` is the if-chain of `handle_message`. It reads the
    lower-cased, stripped text, the author, whether the author holds a key,
    and whether the message is a reply. It picks one of three tiers: public,
    key holder or curator, and curator only.
  - `Commands.GiveVerdict`, `Commands.CollectVerdict` and
    `Commands.ParseAssignment` are the parsers and amount guards of
    `handle_vruchit`, `handle_otnyat` and `handle_naznachit`.
  - `Commands.Guard` turns a routed command into at most one store write
    (`Effect`), and `Commands.ApplyEffect` states what that write does.
  - `Commands.HandleMessage` runs the whole path on a `Db.Club`.
  - Lemmas such as `Commands.GiveFromKeyHolder` follow whole messages from
    the text to the write, for example "вручить 5" sent in reply to a
    member.
- **Python text handling** (`text.dfy`): the string functions the bot
  relies on.
  - `str.isspace`, which is also the `\s` class and what `str.strip` removes.
  - `str.lower`, for ASCII and basic Cyrillic (U+0400–U+042F).
  - Case-insensitive keyword matching.
  - The `-?\d+` amount pattern converted with `int`.

The clock is an explicit `now` parameter, and each history row stores it as
an integer `date`.

`get_perks` skips a code only when it is NULL or empty *before* stripping.
So a code made of spaces adds the empty code `""` to the set, and
`Db.ReplayPerk` keeps that behaviour.

## Model

| member | source | states |
|---|---|---|
| Db.NextId | db.py:25-26 | on a log whose ids are positive and increasing, the next AUTOINCREMENT id is positive and above every id already used |
| Db.Append | db.py:115-118 | one new history row with the given fields is added at the end; earlier rows are unchanged, and the new id is above every earlier id |
| Db.Balance | db.py:92-96 | a user without a row has balance 0; with the store invariant, every balance lies between 0 and the largest INTEGER |
| Db.Club.GetBalance | db.py:92-96 | returns the stored balance, or 0 without a row; the result is never negative and fits an INTEGER |
| Db.Clamped | db.py:110-112 | the stored balance is old + amount when that is not negative, and 0 when it is |
| Db.ChangeBalanceOp | db.py:98-119 | when the amount or the new balance is outside the INTEGER range, the store is unchanged; otherwise a missing user is created with balance 0 and key 0, the balance becomes max(0, old + amount), roles and the key are unchanged, and one `change_balance` row logs the unclamped amount and the reason; other users are never touched, and the invariant is kept |
| Db.Club.ChangeBalance | db.py:98-119 | returns true exactly when both numbers fit an INTEGER, and updates the store in place exactly as `ChangeBalanceOp`, keeping the invariant |
| Db.ResetUserBalanceOp | db.py:121-124 | only an existing user's balance becomes 0; no row is created and nothing is logged |
| Db.Club.ResetUserBalance | db.py:121-124 | performs `ResetUserBalanceOp` in place |
| Db.ResetAllBalancesOp | db.py:126-129 | every balance becomes 0; key flags, roles and history are unchanged |
| Db.Club.ResetAllBalances | db.py:126-129 | performs `ResetAllBalancesOp` in place |
| Db.SetRoleOp | db.py:132-139 | upserts name and description; an existing image is kept and a new row gets a NULL image; other rows are untouched |
| Db.Club.SetRole | db.py:132-139 | performs `SetRoleOp` in place |
| Db.RoleOf | db.py:141-147 | None exactly when the user has no roles row, otherwise its name and description |
| Db.Club.GetRole | db.py:141-147 | returns `RoleOf` on the roles table: None exactly when there is no row, otherwise the row's name and description |
| Db.SetRoleImageOp | db.py:149-156 | upserts the image only; an existing name and description are kept, and a new row gets NULL for both |
| Db.Club.SetRoleImage | db.py:149-156 | performs `SetRoleImageOp` in place |
| Db.Club.GetRoleWithImage | db.py:158-162 | None exactly when there is no row, otherwise the whole row |
| Db.HasKeyIn | db.py:179-183 | a user without a row has no key; with the store invariant, a user with a row has a key exactly when the key column is not 0 |
| Db.GrantKeyOp | db.py:165-172 | afterwards the user has a key; a missing user is created with balance 0; the balance and all other users are unchanged |
| Db.Club.GrantKey | db.py:165-172 | performs `GrantKeyOp` in place |
| Db.RevokeKeyOp | db.py:174-177 | afterwards the user has no key; no row is created and the balance is unchanged |
| Db.Club.RevokeKey | db.py:174-177 | performs `RevokeKeyOp` in place |
| Db.Club.HasKey | db.py:179-183 | true exactly when the user has a row whose key is 1, which is `HasKeyIn` |
| Db.KeyRoundTrip | db.py:165-183 | after a grant the user has a key; after grant then revoke they have none; every other user's key status is as before |
| Db.LastHistory | db.py:186-192 | the last `limit` rows (all of them for a negative or large limit), newest first; their ids descend, and no row left out has a larger id |
| Db.Club.GetLastHistory | db.py:186-192 | returns `LastHistory` of the log, with a limit of 5 when none is given |
| Db.TopStep | db.py:194-202 | adding a richest remaining positive user to the ranked list keeps the list positive, non-increasing and free of repeats, with no unlisted user richer than a listed one |
| Db.Club.GetTopUsers | db.py:194-202 | only positive balances, with the stored balance; non-increasing order; no user twice; at most `limit` rows (10 by default, no bound when negative); a positive user is left out only when the limit is full and their balance is at most every listed one |
| Db.ListedRoles | db.py:204-210 | a user is listed exactly when their role name is not NULL and has a character other than a space (SQLite `TRIM`); it is listed with that name |
| Db.Club.GetAllRoles | db.py:204-210 | the same membership and names as `ListedRoles` |
| Db.RemovedRoleIsUnlisted | db.py:132-139 | `set_role(u, None, None)` keeps u's row and image, drops u from the role list, and leaves every other user listed or unlisted as before |
| Db.AssignedRoleIsListed | db.py:204-210 | a role name with a non-space character puts the user in the role list under exactly that name |
| Db.Club.GetKeyHolders | db.py:213-221 | exactly the users with key 1, in strictly ascending id order |
| Db.GrantPerkOp | db.py:224-231 | appends one `perk_grant` row with a NULL amount and the code; users and roles are unchanged |
| Db.Club.GrantPerk | db.py:224-231 | performs `GrantPerkOp` in place |
| Db.RevokePerkOp | db.py:233-240 | appends one `perk_revoke` row with a NULL amount and the code; users and roles are unchanged |
| Db.Club.RevokePerk | db.py:233-240 | performs `RevokePerkOp` in place |
| Db.NormalizeCode | db.py:260 | a stored code is read as a lower-case word with no whitespace at either end, and it is empty exactly when the code is all whitespace |
| Db.ReplayPerk | db.py:257-263 | after one row, x is held exactly when the row grants x, or x was held and the row does not revoke it; rows of other users, rows of other actions and NULL or empty codes change nothing; codes are stripped and lower-cased |
| Db.PerksOf | db.py:242-264 | every perk in the replayed set comes from some grant row of that user and code |
| Db.PerksAfterAppend | db.py:242-264 | replaying a log with one more row is one more replay step |
| Db.PerkHeldIff | db.py:242-264 | x is among u's perks exactly when some grant of x to u is followed by no revocation of x from u (the reference definition of the replay) |
| Db.Club.GetPerks | db.py:242-264 | on a valid store, the loop returns the replay of the whole log in id order, and therefore the set the reference definition describes |
| Db.GrantRevokeGrant | db.py:242-264 | grant x, revoke x, grant x: u's perks are the old ones plus x, then minus x, then plus x again |
| Db.PerkRowsOfOthersIgnored | db.py:249-255 | a perk row for one user never changes another user's perks |
| Db.BalanceChangeKeepsPerks | db.py:249-255 | a balance change, which is logged in the same table, never changes anyone's perks |
| Db.LastClaim | db.py:272-285 | None exactly when no salary-claim row of that user and code exists; otherwise a matching row with the largest id |
| Db.SecondsSinceClaim | db.py:267-285 | None exactly when no claim matches; otherwise `now` minus the date of the claim `LastClaim` finds, which on a log with increasing ids is the matching row with the largest id |
| Db.Club.GetSecondsSinceLastSalaryClaim | db.py:267-285 | returns `SecondsSinceClaim` on the log, for the code "зп" when none is given: None exactly when no claim matches |
| Db.RecordSalaryClaimOp | db.py:287-296 | when the amount fits an INTEGER, appends one `salary_claim` row with the amount and the code; otherwise leaves the store as it was; users and roles are unchanged |
| Db.Club.RecordSalaryClaim | db.py:287-296 | returns true exactly when the amount fits an INTEGER, and performs `RecordSalaryClaimOp` in place, with the code "зп" when none is given |
| Db.ClaimRestartsCooldown | db.py:267-296 | right after a claim recorded at time d with an amount that fits, the cooldown query gives now − d; a refused claim leaves the cooldown as it was |
| Db.OtherClaimKeepsCooldown | db.py:267-296 | a claim by another user or under another code leaves the cooldown as it was |
| Db.Club.GetKnownUsers | db.py:299-303 | exactly the users that have a row |
| Text.LowerChar | commands.py:22 | a character changes exactly when it is upper case; a capital becomes the small letter that `UpperChar` maps back to it; the result is never upper case; whitespace and digits are kept |
| Text.LowerCharInverse | commands.py:22 | lower-casing a capital and upper-casing the result gives the capital back, and the same the other way round for a small letter |
| Text.Lower | commands.py:22 | lower-casing acts on each character on its own, as `LowerChar`; it keeps the length and the position of every whitespace character, yields no upper-case character, and leaves a lower-case text as it is |
| Text.Strip | commands.py:22 | the result is empty exactly when the text is all whitespace; otherwise it neither starts nor ends with whitespace, it is a slice of the text, and everything cut off is whitespace |
| Text.StripKeepsTrimmed | commands.py:168 | stripping a text that neither starts nor ends with whitespace leaves it unchanged |
| Text.ParseLeadingInt | commands.py:172-178 | no number exactly when no decimal digit follows the optional leading minus sign |
| Text.ParseAmount | commands.py:172-178 | a number only when the keyword, matched without regard to case, is followed by at least one whitespace character |
| Text.ParseAmountRoundTrip | commands.py:172-178 | the keyword, whitespace, n in decimal and any text not starting with a digit parse back to exactly n, for every integer n |
| Commands.Normalize | commands.py:22 | the routed text: lower-cased, then stripped |
| Commands.PublicRoute | commands.py:29-106 | each public command fires exactly when the text equals its phrase ("роль" also needs a reply) |
| Commands.KeyRoute | commands.py:111-121 | only key-tier commands; "вручить" exactly when the text starts with "вручить "; "взыскать" exactly when it starts with "взыскать " and not with "вручить "; the member list exactly on "члены клуба" |
| Commands.CuratorRoute | commands.py:123-163 | only curator commands; each fires exactly when its test accepts and no earlier test did: the role and key commands on their text with a reply, the wipe on "обнулить клуб", the global reset on any text starting with "обнулить балансы", the single reset on "обнулить баланс…" but not "обнулить балансы…", and the photo command on the lower-cased, unstripped text starting with "фото роли" |
| Commands.Dispatch | commands.py:29-163 | a public command found in the text always wins; otherwise the curator or a key holder gets the key-tier command when there is one; otherwise the curator gets the curator command; everyone else gets nothing |
| Commands.Route | commands.py:19-163 | an empty text and the bot's own messages route nowhere; any other message is dispatched on its normalized text; key-tier commands only for the curator or a key holder; curator commands only for the curator; commands that act on someone need a reply |
| Commands.UnprivilegedReachOnlyPublic | commands.py:108-124 | an author who is neither the curator nor a key holder reaches nothing but public commands |
| Commands.PublicCommandsMatchWholeText | commands.py:19-106 | for any author other than the bot, a public phrase in the normalized text routes to that command, and a public command is routed only that way |
| Commands.BulkResetIsNotSingleReset | commands.py:141-146 | from the curator, "обнулить балансы" routes to the global reset, never to the single-user one |
| Commands.GiveVerdict | commands.py:166-181 | accepted exactly when the amount parses and is positive, and then with that amount; malformed exactly when it does not parse |
| Commands.CollectVerdict | commands.py:188-209 | accepted exactly when the amount parses and 0 < amount ≤ balance; malformed exactly when it does not parse; insufficient exactly when it is positive and above the balance |
| Commands.GiveWrittenAmount | commands.py:172-184 | "вручить n …" is accepted with exactly n when n > 0, and refused as not positive otherwise |
| Commands.CollectWrittenAmount | commands.py:192-209 | "взыскать n …" is accepted with exactly n when 0 < n ≤ balance, refused as insufficient when n > balance, and refused as not positive otherwise |
| Commands.ParseAssignment | commands.py:216-225 | a parsed role name is non-empty and has no quote; a parsed description is non-empty and has no line break |
| Commands.AssignmentRoundTrip | commands.py:216-225 | `назначить "name" description` gives back exactly that name and description, for a quote-free name and a one-line description with no whitespace at either end |
| Commands.Vruchit | commands.py:166-186 | a credit exactly when the give guard accepts, to the replied-to user and with the accepted, positive amount; otherwise no write |
| Commands.Otnyat | commands.py:188-214 | a debit exactly when the collect guard accepts, from the replied-to user and with an amount between 1 and the balance; otherwise no write |
| Commands.Naznachit | commands.py:216-234 | a role assignment exactly when the text parses, to the replied-to user, with the parsed name and description; otherwise no write |
| Commands.Guard | commands.py:141-163 | "обнулить балансы" always resets every balance; every other handler writes nothing without a reply and, with one, does what `Handle` says; a credit comes only from an accepted "вручить", and a debit only from an accepted "взыскать" covered by the balance |
| Commands.Handle | commands.py:113-163 | each command runs its handler on the replied-to user: "вручить" as `Vruchit`, "взыскать" as `Otnyat`, "назначить" as `Naznachit`, the role, key and reset commands as their store write, and the photo command only with a photo; read-only commands and "обнулить клуб" write nothing |
| Commands.KeyHandle | commands.py:113-118 | "вручить" is `Vruchit`, "взыскать" is `Otnyat`, and no other command writes a balance |
| Commands.CuratorHandle | commands.py:125-163 | each curator command is its store write on the replied-to user, "обнулить клуб" writes nothing, and no other command makes a curator write |
| Commands.TargetBalance | commands.py:203-206 | the balance read for "взыскать" is the replied-to user's: 0 without a reply or without a row, and within the INTEGER range and never negative under the store invariant |
| Commands.Decide | commands.py:19-263 | no write unless the author is the curator or a key holder; curator writes only from the curator; credits are positive; debits are positive and covered by the target's stored balance |
| Commands.ApplyEffect | commands.py:184-358 | each effect is the corresponding store operation, so the store invariant is kept; no effect, or a balance change that does not fit an INTEGER, leaves the store unchanged |
| Commands.CollectNeverClamps | commands.py:198-212 | after a successful "взыскать", the target's balance is exactly the old balance minus the amount and never negative, so the zero floor of `change_balance` is not reached and no INTEGER bound is crossed; the log records −amount |
| Commands.GiveCreditsExactly | commands.py:171-184 | a successful "вручить" credits exactly the amount written after the keyword, unless the new balance would leave the INTEGER range, in which case nothing changes |
| Commands.UnprivilegedCannotWrite | commands.py:108-163 | a message from an author who is neither the curator nor a key holder leaves the store unchanged |
| Commands.GiveFromKeyHolder | commands.py:113-184 | "вручить n", for any n > 0, from the curator or a key holder in reply to a member, credits exactly n to that member |
| Commands.CollectFromKeyHolder | commands.py:116-212 | "взыскать n", for any n > 0, from the curator or a key holder in reply to a member, debits exactly n when the balance covers it and writes nothing otherwise |
| Commands.RemoveRoleByReply | commands.py:128-244 | the curator's "снять роль" in reply to a member clears that member's role |
| Commands.GrantKeyByReply | commands.py:131-254 | the curator's "ключ от сейфа" in reply to a member grants that member a key |
| Commands.RevokeKeyByReply | commands.py:134-263 | the curator's "снять ключ" in reply to a member revokes that member's key |
| Commands.ResetOneByReply | commands.py:144-354 | the curator's "обнулить баланс" in reply to a member resets that member's balance |
| Commands.RolePhotoByReply | commands.py:147-163 | the curator's "фото роли" with a photo, in reply to a member, sets that member's role image |
| Commands.ResetAllByCurator | commands.py:141-359 | the curator's "обнулить балансы", with or without a reply, resets every balance |
| Commands.Perform | commands.py:147-358 | applies one effect in place, exactly as `ApplyEffect`; `committed` is false exactly when a balance change did not fit an INTEGER, and true otherwise, also when the effect writes nothing |
| Commands.HandleMessage | commands.py:19-163 | the store after a message is `ApplyEffect` of the effect `Decide` picks; the invariant is kept; `committed` is false exactly when a balance change did not fit an INTEGER |

## Left out

- Storage plumbing is not modelled: aiosqlite connections and commits, the schema check and migration, and `init_db`. The constructor `Db.Club.constructor` stands for a fresh database with three empty tables.
- SQLite's clock (`CURRENT_TIMESTAMP`, `strftime('%s','now')`) is replaced by an explicit integer `now`, and each row stores it as `date`.
- The `username` column of `users` is not modelled: nothing in the modelled code writes it other than NULL.
- The `author_id` argument of `change_balance` is dropped: it is never stored.
- All Telegram I/O is not modelled. This covers replies, photo sending, `get_me`, and name lookups. The bot's own id, the replied-to author and the photo file id are inputs of the model. The photo input stands for the photo of the message or, failing that, of the message it replies to.
- The error a handler meets when `change_balance` raises is not modelled beyond the store: the model reports that nothing was committed (`committed` is false) and leaves the store unchanged.
- User ids are assumed to fit an INTEGER. They come from Telegram, whose ids do, so binding them never raises.
- Db.NextId: does not model the failure of AUTOINCREMENT once the largest INTEGER id has been used, because no log in use gets that long.
- The text built by `handle_rating`, `handle_club_members` and `handle_list` is not modelled. Their commands are routed, but they only read.
- `find_member_by_username` is not modelled: nothing in the routed path calls it.
- `handle_clear_db` is not modelled as a write. "обнулить клуб" is routed to `WipeClub`, but deleting the database file and restarting the process lie outside the store.
- The fallback to `get_role` when `get_role_with_image` is missing (a `NameError`) is not modelled: the function exists in `db.py`.
- bot.py is not part of this model: it holds startup, polling, the health server and signal handling.
- Concurrency is not modelled: every operation is one atomic step on the store.
- Db.Club.GetTopUsers: does not fix the order of users with equal balances, which SQL leaves open.
- Db.Club.GetKnownUsers: returns a set, because the SQL result has no defined order.
- Db.Club.GetAllRoles: returns a map from user to role name, because the SQL result has no defined order.
- Db.Club.GetLastHistory: returns whole history rows, `id` included, where the SELECT returns only user, action, amount, reason and date; the extra column is the one the rows are ordered by.
- Text.LowerChar: lower-cases ASCII and the basic Cyrillic capitals U+0400–U+042F only; other capitals, such as Ґ (U+0490) or Ѣ (U+0462) and those of other scripts, which Python's `str.lower` also handles, are left as they are.
- Text.ParseLeadingInt: reads only the ASCII digits 0–9, not the other Unicode decimal digits Python's `\d` and `int` accept.

=== FILE: commands.dfy ===
/**
 * How a chat message reaches the store. `Route` is the if-chain of
 * `handle_message`: from the message text, its author, the author's key
 * and whether the message replies to someone, it picks at most one handler.
 * The guards of the handlers that write (`handle_vruchit`, `handle_otnyat`,
 * `handle_naznachit`, ...) are functions too, and `Decide` combines route
 * and guards into the one store write a message may cause. `HandleMessage`
 * runs that on a `Db.Club`. Replies, photos and name lookups are not modelled:
 * the replied-to author and the photo file id arrive as fields of `Message`.
 */
module Commands {
  import opened Wrappers
  import Text
  import Db

  /** The curator's user id. */
  const KURATOR_ID := 164059195
  /** The reason logged with the balance changes made by commands. */
  const NO_REASON := "без причины"
  const GIVE := "вручить"
  const COLLECT := "взыскать"
  const ASSIGN := "назначить"

  /**
   * An incoming message: its text ("" when it has none), its author, the
   * author of the message it replies to, and the file id of the photo sent
   * with it or with the replied-to message.
   */
  datatype Message = Message(text: string, author: int, replyTo: Option<int>, photo: Option<string>)

  /** The handler `handle_message` hands a message to. */
  datatype Command =
    | Ignore
      // open to everyone
    | ShowPocket | ShowOwnRole | ShowRoleOf | ShowCommandList | ShowClubInfo | ShowRating
      // key holders and the curator
    | Give | Collect | ShowMembers
      // the curator only
    | AssignRole | RemoveRole | GrantSafeKey | RevokeSafeKey | WipeClub
    | ResetAllBalances | ResetBalance | SetRolePhoto

  predicate PublicTier(c: Command) {
    c.ShowPocket? || c.ShowOwnRole? || c.ShowRoleOf? || c.ShowCommandList? || c.ShowClubInfo? || c.ShowRating?
  }

  predicate KeyTier(c: Command) {
    c.Give? || c.Collect? || c.ShowMembers?
  }

  predicate CuratorTier(c: Command) {
    c.AssignRole? || c.RemoveRole? || c.GrantSafeKey? || c.RevokeSafeKey? || c.WipeClub?
    || c.ResetAllBalances? || c.ResetBalance? || c.SetRolePhoto?
  }

  /** The text `handle_message` routes on: lower-cased, then stripped of surrounding whitespace. */
  function Normalize(raw: string): string {
    Text.Strip(Text.Lower(raw))
  }

  /** The commands open to everyone: each compares the whole normalized text. */
  function PublicRoute(text: string, hasReply: bool): (c: Command)
    ensures c == Ignore || PublicTier(c)
    ensures c == ShowPocket <==> text == "мой карман"
    ensures c == ShowOwnRole <==> text == "моя роль"
    ensures c == ShowRoleOf <==> text == "роль" && hasReply
    ensures c == ShowCommandList <==> text == "список команд"
    ensures c == ShowClubInfo <==> text == "клуб"
    ensures c == ShowRating <==> text == "рейтинг клуба"
  {
    if text == "мой карман" then ShowPocket
    else if text == "моя роль" then ShowOwnRole
    else if text == "роль" && hasReply then ShowRoleOf
    else if text == "список команд" then ShowCommandList
    else if text == "клуб" then ShowClubInfo
    else if text == "рейтинг клуба" then ShowRating
    else Ignore
  }

  /** The commands open to key holders and the curator. */
  function KeyRoute(text: string): (c: Command)
    ensures c == Ignore || KeyTier(c)
    ensures c == Give <==> Text.StartsWith(text, "вручить ")
    ensures c == Collect <==> !Text.StartsWith(text, "вручить ") && Text.StartsWith(text, "взыскать ")
    ensures c == ShowMembers <==> text == "члены клуба"
  {
    if Text.StartsWith(text, "вручить ") then
      assert text[0] == "вручить "[0];
      Give
    else if Text.StartsWith(text, "взыскать ") then Collect
    else if text == "члены клуба" then ShowMembers
    else Ignore
  }

  /**
   * The curator's commands. "обнулить балансы" is tested before its prefix
   * "обнулить баланс"; the photo test alone looks at the lower-cased text
   * before it is stripped.
   */
  function CuratorRoute(raw: string, text: string, hasReply: bool): (c: Command)
    ensures c == Ignore || CuratorTier(c)
    ensures c == AssignRole <==> Text.StartsWith(text, "назначить ") && hasReply
    ensures c == RemoveRole <==> text == "снять роль" && hasReply
    ensures c == GrantSafeKey <==> text == "ключ от сейфа" && hasReply
    ensures c == RevokeSafeKey <==> text == "снять ключ" && hasReply
    ensures c == WipeClub <==> text == "обнулить клуб"
    ensures c == ResetAllBalances <==> Text.StartsWith(text, "обнулить балансы")
    ensures c == ResetBalance <==> Text.StartsWith(text, "обнулить баланс") && !Text.StartsWith(text, "обнулить балансы")
    ensures c == SetRolePhoto <==> !CuratorTextMatch(text, hasReply) && Text.StartsWith(Text.Lower(raw), "фото роли")
  {
    if Text.StartsWith(text, "назначить ") && hasReply then
      assert text[0] == "назначить "[0];
      AssignRole
    else if text == "снять роль" && hasReply then
      assert text[0] == 'с' && text[6] == 'р';
      RemoveRole
    else if text == "ключ от сейфа" && hasReply then
      assert text[0] == 'к';
      GrantSafeKey
    else if text == "снять ключ" && hasReply then
      assert text[0] == 'с' && text[6] == 'к';
      RevokeSafeKey
    else if text == "обнулить клуб" then
      assert text[0] == 'о' && text[9] == 'к';
      WipeClub
    else if Text.StartsWith(text, "обнулить балансы") then
      assert text[..15] == "обнулить баланс";
      ResetAllBalances
    else if Text.StartsWith(text, "обнулить баланс") then ResetBalance
    else if Text.StartsWith(Text.Lower(raw), "фото роли") then SetRolePhoto
    else Ignore
  }

  /** One of the curator's tests before the photo one accepts `text`. */
  predicate CuratorTextMatch(text: string, hasReply: bool) {
    (hasReply && (Text.StartsWith(text, "назначить ") || text == "снять роль" || text == "ключ от сейфа" || text == "снять ключ"))
    || text == "обнулить клуб" || Text.StartsWith(text, "обнулить баланс")
  }

  /**
   * The tiers of `handle_message` on the normalized `text`: the public
   * commands, then the key tier (curator or key holder), then the curator
   * tier. `hasKey` is what `has_key(author)` returns.
   */
  function Dispatch(raw: string, text: string, author: int, hasKey: bool, hasReply: bool): (c: Command)
    ensures KeyTier(c) ==> author == KURATOR_ID || hasKey
    ensures CuratorTier(c) ==> author == KURATOR_ID
    ensures c.ResetBalance? ==> !Text.StartsWith(text, "обнулить балансы")
    ensures c.ShowRoleOf? || c.AssignRole? || c.RemoveRole? || c.GrantSafeKey? || c.RevokeSafeKey? ==> hasReply
    ensures PublicRoute(text, hasReply) != Ignore ==> c == PublicRoute(text, hasReply)
    ensures PublicTier(c) ==> c == PublicRoute(text, hasReply)
    ensures PublicRoute(text, hasReply) == Ignore && (author == KURATOR_ID || hasKey) && KeyRoute(text) != Ignore
            ==> c == KeyRoute(text)
    ensures PublicRoute(text, hasReply) == Ignore && author == KURATOR_ID && KeyRoute(text) == Ignore
            ==> c == CuratorRoute(raw, text, hasReply)
    ensures PublicRoute(text, hasReply) == Ignore && author != KURATOR_ID && !(hasKey && KeyRoute(text) != Ignore)
            ==> c == Ignore
  {
    var open := PublicRoute(text, hasReply);
    var keyed := KeyRoute(text);
    if open != Ignore then open
    else if (author == KURATOR_ID || hasKey) && keyed != Ignore then keyed
    else if author != KURATOR_ID then Ignore
    else CuratorRoute(raw, text, hasReply)
  }

  /** `handle_message`: nothing for an empty text or the bot's own message, else `Dispatch`. */
  function Route(raw: string, author: int, botId: int, hasKey: bool, hasReply: bool): (c: Command)
    ensures raw == "" || author == botId ==> c == Ignore
    ensures raw != "" && author != botId ==> c == Dispatch(raw, Normalize(raw), author, hasKey, hasReply)
    ensures KeyTier(c) ==> author == KURATOR_ID || hasKey
    ensures CuratorTier(c) ==> author == KURATOR_ID
    ensures c.ResetBalance? ==> !Text.StartsWith(Normalize(raw), "обнулить балансы")
    ensures c.ShowRoleOf? || c.AssignRole? || c.RemoveRole? || c.GrantSafeKey? || c.RevokeSafeKey? ==> hasReply
  {
    if raw == "" || author == botId then Ignore
    else Dispatch(raw, Normalize(raw), author, hasKey, hasReply)
  }

  /** Without a key and without being the curator, an author reaches only public commands. */
  lemma UnprivilegedReachOnlyPublic(raw: string, author: int, botId: int, hasReply: bool)
    requires author != KURATOR_ID
    ensures var c := Route(raw, author, botId, false, hasReply);
            c == Ignore || PublicTier(c)
  {
  }

  /**
   * The public commands are answered exactly when `PublicRoute` finds one in
   * the normalized text, whoever writes it; with the equivalences in
   * `PublicRoute`'s contract, each fires on its exact text and nothing else.
   */
  lemma PublicCommandsMatchWholeText(raw: string, author: int, botId: int, hasKey: bool, hasReply: bool)
    ensures var c := Route(raw, author, botId, hasKey, hasReply);
            var p := PublicRoute(Normalize(raw), hasReply);
            (PublicTier(c) ==> c == p)
            && (raw != "" && author != botId && p != Ignore ==> c == p)
  {
  }

  /** The curator's "обнулить балансы" reaches the global reset, never the single-user one. */
  lemma {:induction false} BulkResetIsNotSingleReset(raw: string, botId: int, hasKey: bool, hasReply: bool)
    requires KURATOR_ID != botId
    requires Normalize(raw) == "обнулить балансы"
    ensures Route(raw, KURATOR_ID, botId, hasKey, hasReply) == ResetAllBalances
  {
    assert raw != "";
    BulkResetDispatch(raw, hasKey, hasReply);
  }

  lemma BulkResetDispatch(raw: string, hasKey: bool, hasReply: bool)
    ensures Dispatch(raw, "обнулить балансы", KURATOR_ID, hasKey, hasReply) == ResetAllBalances
  {
    var text := "обнулить балансы";
    assert text[0] == 'о' && text[1] == 'б' && text[9] == 'б';
    assert PublicRoute(text, hasReply) == Ignore;
    assert KeyRoute(text) == Ignore;
    assert text[..|text|] == text;
  }

  // ----- Guards of handle_vruchit and handle_otnyat -----

  /** Why a give or collect command does or does not change a balance. */
  datatype Verdict = Accepted(amount: int) | Malformed | NotPositive | Insufficient(balance: int)

  /**
   * `handle_vruchit`: the number after "вручить" must parse and be positive.
   * It reads the stripped, not lower-cased, text and matches the keyword
   * without regard to case.
   */
  function GiveVerdict(text: string): (v: Verdict)
    ensures v.Accepted? <==> Text.ParseAmount(GIVE, text).Some? && Text.ParseAmount(GIVE, text).value > 0
    ensures v.Accepted? ==> v.amount == Text.ParseAmount(GIVE, text).value
    ensures v == Malformed <==> Text.ParseAmount(GIVE, text).None?
    ensures !v.Insufficient?
  {
    match Text.ParseAmount(GIVE, text)
    case None => Malformed
    case Some(n) => if n <= 0 then NotPositive else Accepted(n)
  }

  /**
   * `handle_otnyat`: the number after "взыскать" must parse, be positive and
   * not exceed the target's balance. It runs on the lower-cased, stripped text.
   */
  function CollectVerdict(text: string, balance: int): (v: Verdict)
    ensures v.Accepted? <==> Text.ParseAmount(COLLECT, text).Some?
                             && 0 < Text.ParseAmount(COLLECT, text).value <= balance
    ensures v.Accepted? ==> v.amount == Text.ParseAmount(COLLECT, text).value
    ensures v == Malformed <==> Text.ParseAmount(COLLECT, text).None?
    ensures v.Insufficient? <==> Text.ParseAmount(COLLECT, text).Some?
                                 && 0 < Text.ParseAmount(COLLECT, text).value
                                 && balance < Text.ParseAmount(COLLECT, text).value
    ensures v.Insufficient? ==> v.balance == balance
  {
    match Text.ParseAmount(COLLECT, text)
    case None => Malformed
    case Some(n) =>
      if n <= 0 then NotPositive
      else if n > balance then Insufficient(balance)
      else Accepted(n)
  }

  lemma KeywordsAreLower()
    ensures Text.IsLowerWord(GIVE) && Text.IsLowerWord(COLLECT) && Text.IsLowerWord(ASSIGN)
  {
  }

  /**
   * "вручить N ..." with N written in decimal gives exactly N when N is
   * positive and is refused as not positive otherwise.
   */
  lemma GiveWrittenAmount(n: int, rest: string)
    requires rest == [] || !Text.IsDigit(rest[0])
    ensures GiveVerdict(GIVE + (" " + (Text.ShowInt(n) + rest))) == if n > 0 then Accepted(n) else NotPositive
  {
    KeywordsAreLower();
    Text.ParseAmountRoundTrip(GIVE, " ", n, rest);
  }

  /**
   * "взыскать N ..." takes exactly N from a balance that covers it, and is
   * refused for a larger N and for a non-positive one.
   */
  lemma CollectWrittenAmount(n: int, balance: int, rest: string)
    requires rest == [] || !Text.IsDigit(rest[0])
    ensures CollectVerdict(COLLECT + (" " + (Text.ShowInt(n) + rest)), balance)
            == if n <= 0 then NotPositive else if n > balance then Insufficient(balance) else Accepted(n)
  {
    KeywordsAreLower();
    Text.ParseAmountRoundTrip(COLLECT, " ", n, rest);
  }

  // ----- The argument of handle_naznachit -----

  /** The index of the first `c` in `s`, or `|s|` when there is none. */
  function IndexOf(s: string, c: char): (r: nat)
    ensures r <= |s|
    ensures r < |s| ==> s[r] == c
    ensures forall i :: 0 <= i < r ==> s[i] != c
  {
    if s == [] || s[0] == c then 0 else 1 + IndexOf(s[1..], c)
  }

  /**
   * The argument of `handle_naznachit`, read from the stripped text with the
   * keyword matched without regard to case: the keyword, whitespace, a
   * quoted non-empty role name without quotes, whitespace, then the
   * description up to the end of its line.
   */
  function ParseAssignment(raw: string): (r: Option<(string, string)>)
    ensures r.Some? ==> r.value.0 != [] && IndexOf(r.value.0, '"') == |r.value.0|
    ensures r.Some? ==> r.value.1 != [] && IndexOf(r.value.1, '\n') == |r.value.1|
  {
    var s := Text.Strip(raw);
    if !Text.MatchesKeyword(s, ASSIGN) then None else ParseQuotedRole(s[|ASSIGN|..])
  }

  /** `\s+"([^"]+)"\s+(.+)` at the start of `a`. */
  function ParseQuotedRole(a: string): (r: Option<(string, string)>)
    ensures r.Some? ==> r.value.0 != [] && IndexOf(r.value.0, '"') == |r.value.0|
    ensures r.Some? ==> r.value.1 != [] && IndexOf(r.value.1, '\n') == |r.value.1|
  {
    var w := Text.LeadingSpaces(a);
    if w == 0 || w == |a| || a[w] != '"' then None else ParseNameAndDescription(a[w + 1..])
  }

  /** `([^"]+)"\s+(.+)` at the start of `b`: the name runs to the first quote. */
  function ParseNameAndDescription(b: string): (r: Option<(string, string)>)
    ensures r.Some? ==> r.value.0 != [] && IndexOf(r.value.0, '"') == |r.value.0|
    ensures r.Some? ==> r.value.1 != [] && IndexOf(r.value.1, '\n') == |r.value.1|
  {
    var q := IndexOf(b, '"');
    if q == 0 || q == |b| then None
    else
      match ParseDescription(b[q + 1..])
      case None => None
      case Some(desc) =>
        Some((b[..q], desc))
  }

  /**
   * `\s+(.+)` at the start of `c`: the description runs from the first
   * character after the whitespace to the end of the line. The whole text
   * was stripped, so it never ends in whitespace and `\s+` never has to give
   * characters back to `.+`; a `c` made only of whitespace does not occur.
   */
  function ParseDescription(c: string): (r: Option<string>)
    ensures r.Some? ==> r.value != [] && IndexOf(r.value, '\n') == |r.value|
  {
    var w := Text.LeadingSpaces(c);
    if w == 0 || w == |c| then None
    else
      var d := c[w..];
      var n := IndexOf(d, '\n');
      assert n > 0 by {
        assert !Text.IsSpace(d[0]);
      }
      Some(d[..n])
  }

  lemma DescriptionRoundTrip(desc: string)
    requires desc != [] && IndexOf(desc, '\n') == |desc|
    requires !Text.IsSpace(desc[0])
    ensures ParseDescription([' '] + desc) == Some(desc)
  {
    Text.LeadingSpacesOfSeparated([' '], desc);
    assert desc[..|desc|] == desc;
  }

  lemma NameRoundTrip(name: string, desc: string)
    requires name != [] && IndexOf(name, '"') == |name|
    requires desc != [] && IndexOf(desc, '\n') == |desc|
    requires !Text.IsSpace(desc[0])
    ensures ParseNameAndDescription(name + (['"', ' '] + desc)) == Some((name, desc))
  {
    var b := name + (['"', ' '] + desc);
    assert IndexOf(b, '"') == |name| by {
      assert b[|name|] == '"';
      assert forall i :: 0 <= i < |name| ==> b[i] == name[i];
    }
    assert b[..|name|] == name;
    assert b[|name| + 1..] == [' '] + desc;
    DescriptionRoundTrip(desc);
  }

  lemma QuotedRoundTrip(rest: string)
    ensures ParseQuotedRole([' ', '"'] + rest) == ParseNameAndDescription(rest)
  {
    var a := [' ', '"'] + rest;
    Text.LeadingSpacesOfSeparated([' '], ['"'] + rest);
    assert a == [' '] + (['"'] + rest);
    assert a[1] == '"' && a[2..] == rest;
  }

  lemma KeywordRoundTrip(a: string)
    requires a != [] && !Text.IsSpace(a[|a| - 1])
    ensures ParseAssignment(ASSIGN + a) == ParseQuotedRole(a)
  {
    var s := ASSIGN + a;
    assert s[|s| - 1] == a[|a| - 1];
    assert s[0] == 'н';
    Text.StripKeepsTrimmed(s);
    KeywordsAreLower();
    Text.KeywordMatchesItself(ASSIGN, a);
    assert s[|ASSIGN|..] == a;
  }

  /**
   * Round trip: `назначить "name" description` gives back the name and the
   * description, for a name without quotes and a one-line description with
   * no whitespace at either end.
   */
  lemma {:induction false} AssignmentRoundTrip(name: string, desc: string)
    requires name != [] && IndexOf(name, '"') == |name|
    requires desc != [] && IndexOf(desc, '\n') == |desc|
    requires !Text.IsSpace(desc[0]) && !Text.IsSpace(desc[|desc| - 1])
    ensures ParseAssignment(ASSIGN + ([' ', '"'] + (name + (['"', ' '] + desc)))) == Some((name, desc))
  {
    var rest := name + (['"', ' '] + desc);
    var a := [' ', '"'] + rest;
    assert a[|a| - 1] == desc[|desc| - 1];
    KeywordRoundTrip(a);
    QuotedRoundTrip(rest);
    NameRoundTrip(name, desc);
  }

  // ----- From a message to one store write -----

  /** The store write a message causes, if any. */
  datatype Effect =
    | NoEffect
    | Credit(user: int, amount: int)
    | Debit(user: int, amount: int)
    | AssignRoleTo(user: int, name: string, desc: string)
    | ClearRole(user: int)
    | GrantKeyTo(user: int)
    | RevokeKeyFrom(user: int)
    | ResetBalanceOf(user: int)
    | ResetEveryBalance
    | SetRolePhotoOf(user: int, image: string)

  predicate CuratorEffect(e: Effect) {
    e.AssignRoleTo? || e.ClearRole? || e.GrantKeyTo? || e.RevokeKeyFrom?
    || e.ResetBalanceOf? || e.ResetEveryBalance? || e.SetRolePhotoOf?
  }

  /**
   * `handle_vruchit` on a message that replies to `target`: credit the
   * amount when `GiveVerdict` accepts it, otherwise only answer.
   */
  function Vruchit(text: string, target: int): (e: Effect)
    ensures e == NoEffect || e.Credit?
    ensures e.Credit? <==> GiveVerdict(Text.Strip(text)).Accepted?
    ensures e.Credit? ==> e.user == target && e.amount == GiveVerdict(Text.Strip(text)).amount && e.amount > 0
  {
    var v := GiveVerdict(Text.Strip(text));
    if v.Accepted? then Credit(target, v.amount) else NoEffect
  }

  /**
   * `handle_otnyat` on a message that replies to `target`, whose balance is
   * `balance`: debit the amount when `CollectVerdict` accepts it.
   */
  function Otnyat(text: string, target: int, balance: int): (e: Effect)
    ensures e == NoEffect || e.Debit?
    ensures e.Debit? <==> CollectVerdict(Normalize(text), balance).Accepted?
    ensures e.Debit? ==> e.user == target && e.amount == CollectVerdict(Normalize(text), balance).amount
                         && 0 < e.amount <= balance
  {
    var v := CollectVerdict(Normalize(text), balance);
    if v.Accepted? then Debit(target, v.amount) else NoEffect
  }

  /**
   * `handle_naznachit` on a message that replies to `target`: assign the
   * parsed role when the text parses.
   */
  function Naznachit(text: string, target: int): (e: Effect)
    ensures e == NoEffect || e.AssignRoleTo?
    ensures e.AssignRoleTo? <==> ParseAssignment(text).Some?
    ensures e.AssignRoleTo? ==> e.user == target && ParseAssignment(text) == Some((e.name, e.desc))
  {
    var parsed := ParseAssignment(text);
    if parsed.None? then NoEffect else AssignRoleTo(target, parsed.value.0, parsed.value.1)
  }

  /**
   * The checks inside the handler `command` names, given the balance of the
   * replied-to user (read only by `handle_otnyat`). Every writing handler
   * but "обнулить балансы" needs a reply; with one, `Handle` decides.
   */
  function Guard(command: Command, msg: Message, targetBalance: int): (e: Effect)
    ensures e != NoEffect ==> KeyTier(command) || CuratorTier(command)
    ensures CuratorEffect(e) ==> CuratorTier(command)
    ensures e.Credit? ==> command.Give? && Some(e.user) == msg.replyTo
                          && GiveVerdict(Text.Strip(msg.text)) == Accepted(e.amount) && e.amount > 0
    ensures e.Debit? ==> command.Collect? && Some(e.user) == msg.replyTo
                         && CollectVerdict(Normalize(msg.text), targetBalance) == Accepted(e.amount)
                         && 0 < e.amount <= targetBalance
    ensures e.AssignRoleTo? ==> Some(e.user) == msg.replyTo && ParseAssignment(msg.text) == Some((e.name, e.desc))
    ensures e.SetRolePhotoOf? ==> Some(e.user) == msg.replyTo && msg.photo == Some(e.image)
    ensures command.ResetAllBalances? ==> e == ResetEveryBalance
    ensures msg.replyTo.None? && !command.ResetAllBalances? ==> e == NoEffect
    ensures msg.replyTo.Some? ==> e == Handle(command, msg.text, msg.photo, msg.replyTo.value, targetBalance)
  {
    if command.ResetAllBalances? then ResetEveryBalance
    else if msg.replyTo.None? then NoEffect
    else Handle(command, msg.text, msg.photo, msg.replyTo.value, targetBalance)
  }

  /**
   * The handler `command` names, run on a message with text `text` and
   * photo `photo` that replies to `target`. Handlers that only read
   * (balance, roles, rating, members, the help file) write nothing, and
   * "обнулить клуб" deletes the database file and restarts the process,
   * which lies outside the store and is not an effect here.
   */
  function Handle(command: Command, text: string, photo: Option<string>, target: int, targetBalance: int): (e: Effect)
    ensures e != NoEffect ==> KeyTier(command) || CuratorTier(command)
    ensures CuratorEffect(e) ==> CuratorTier(command)
    ensures e.Credit? ==> command.Give?
    ensures e.Debit? ==> command.Collect?
    ensures e.AssignRoleTo? ==> command.AssignRole?
    ensures e.SetRolePhotoOf? ==> photo == Some(e.image)
    ensures e != NoEffect && !e.ResetEveryBalance? ==> e.user == target
    ensures command.Give? ==> e == Vruchit(text, target)
    ensures command.Collect? ==> e == Otnyat(text, target, targetBalance)
    ensures command.AssignRole? ==> e == Naznachit(text, target)
    ensures command.RemoveRole? ==> e == ClearRole(target)
    ensures command.GrantSafeKey? ==> e == GrantKeyTo(target)
    ensures command.RevokeSafeKey? ==> e == RevokeKeyFrom(target)
    ensures command.ResetAllBalances? ==> e == ResetEveryBalance
    ensures command.ResetBalance? ==> e == ResetBalanceOf(target)
    ensures command.SetRolePhoto? ==> e == if photo.Some? then SetRolePhotoOf(target, photo.value) else NoEffect
    ensures command.WipeClub? || command.ShowMembers? ==> e == NoEffect
  {
    if command.Give? || command.Collect? then KeyHandle(command, text, target, targetBalance)
    else CuratorHandle(command, text, photo, target)
  }

  /** The writing handlers of the key tier: "вручить" and "взыскать". */
  function KeyHandle(command: Command, text: string, target: int, targetBalance: int): (e: Effect)
    ensures e == NoEffect || e.Credit? || e.Debit?
    ensures command.Give? ==> e == Vruchit(text, target)
    ensures command.Collect? ==> e == Otnyat(text, target, targetBalance)
    ensures !command.Give? && !command.Collect? ==> e == NoEffect
  {
    if command.Give? then Vruchit(text, target)
    else if command.Collect? then Otnyat(text, target, targetBalance)
    else NoEffect
  }

  /** The writing handlers of the curator tier. */
  function CuratorHandle(command: Command, text: string, photo: Option<string>, target: int): (e: Effect)
    ensures e == NoEffect || CuratorEffect(e)
    ensures !CuratorTier(command) ==> e == NoEffect
    ensures e != NoEffect && !e.ResetEveryBalance? ==> e.user == target
    ensures command.AssignRole? ==> e == Naznachit(text, target)
    ensures command.RemoveRole? ==> e == ClearRole(target)
    ensures command.GrantSafeKey? ==> e == GrantKeyTo(target)
    ensures command.RevokeSafeKey? ==> e == RevokeKeyFrom(target)
    ensures command.ResetAllBalances? ==> e == ResetEveryBalance
    ensures command.ResetBalance? ==> e == ResetBalanceOf(target)
    ensures command.SetRolePhoto? ==> e == if photo.Some? then SetRolePhotoOf(target, photo.value) else NoEffect
    ensures command.WipeClub? ==> e == NoEffect
  {
    if command.AssignRole? then Naznachit(text, target)
    else if command.RemoveRole? then ClearRole(target)
    else if command.GrantSafeKey? then GrantKeyTo(target)
    else if command.RevokeSafeKey? then RevokeKeyFrom(target)
    else if command.ResetAllBalances? then ResetEveryBalance
    else if command.ResetBalance? then ResetBalanceOf(target)
    else if command.SetRolePhoto? && photo.Some? then SetRolePhotoOf(target, photo.value)
    else NoEffect
  }

  /** The balance `handle_otnyat` reads: that of the replied-to user. */
  function TargetBalance(msg: Message, users: map<int, Db.UserRow>): (r: int)
    ensures msg.replyTo.None? || msg.replyTo.value !in users ==> r == 0
    ensures Db.UsersOk(users) ==> 0 <= r <= Db.MAX_INTEGER
  {
    if msg.replyTo.Some? then Db.Balance(users, msg.replyTo.value) else 0
  }

  /** What a message does to a store whose users table is `users`: route, then guard. */
  function Decide(msg: Message, botId: int, users: map<int, Db.UserRow>): (e: Effect)
    ensures e != NoEffect ==> msg.author == KURATOR_ID || Db.HasKeyIn(users, msg.author)
    ensures CuratorEffect(e) ==> msg.author == KURATOR_ID
    ensures e.Credit? ==> e.amount > 0 && Some(e.user) == msg.replyTo
    ensures e.Debit? ==> 0 < e.amount <= Db.Balance(users, e.user) && Some(e.user) == msg.replyTo
  {
    var command := Route(msg.text, msg.author, botId, Db.HasKeyIn(users, msg.author), msg.replyTo.Some?);
    Guard(command, msg, TargetBalance(msg, users))
  }

  /**
   * The effect is a balance change that `change_balance` refuses because
   * the amount or the new balance does not fit an INTEGER.
   */
  predicate Overflows(t: Db.Tables, e: Effect) {
    (e.Credit? && !Db.ChangeFits(t.users, e.user, e.amount))
    || (e.Debit? && !Db.ChangeFits(t.users, e.user, -e.amount))
  }

  /** The store after an effect, through the operations of `Db`. */
  function ApplyEffect(t: Db.Tables, e: Effect, now: int): (r: Db.Tables)
    ensures Db.TablesOk(t) ==> Db.TablesOk(r)
    ensures e == NoEffect || Overflows(t, e) ==> r == t
  {
    match e
    case NoEffect => t
    case Credit(u, n) => Db.ChangeBalanceOp(t, u, n, NO_REASON, now)
    case Debit(u, n) => Db.ChangeBalanceOp(t, u, -n, NO_REASON, now)
    case AssignRoleTo(u, name, desc) => Db.SetRoleOp(t, u, Some(name), Some(desc))
    case ClearRole(u) => Db.SetRoleOp(t, u, None, None)
    case GrantKeyTo(u) => Db.GrantKeyOp(t, u)
    case RevokeKeyFrom(u) => Db.RevokeKeyOp(t, u)
    case ResetBalanceOf(u) => Db.ResetUserBalanceOp(t, u)
    case ResetEveryBalance => Db.ResetAllBalancesOp(t)
    case SetRolePhotoOf(u, image) => Db.SetRoleImageOp(t, u, image)
  }

  /**
   * A successful "взыскать" takes exactly the amount: the balance it leaves
   * is the old one minus the amount, so the zero floor of `change_balance`
   * never applies, the INTEGER range is never left, and the log records
   * the negated amount.
   */
  lemma CollectNeverClamps(msg: Message, botId: int, t: Db.Tables, now: int)
    requires Db.TablesOk(t)
    requires Decide(msg, botId, t.users).Debit?
    ensures var e := Decide(msg, botId, t.users);
            var r := ApplyEffect(t, e, now);
            !Overflows(t, e)
            && Db.Balance(r.users, e.user) == Db.Balance(t.users, e.user) - e.amount >= 0
            && r.history[|t.history|].amount == Some(-e.amount)
  {
    DebitWithinBalance(t, Decide(msg, botId, t.users), now);
  }

  lemma DebitWithinBalance(t: Db.Tables, e: Effect, now: int)
    requires Db.TablesOk(t)
    requires e.Debit? && 0 < e.amount <= Db.Balance(t.users, e.user)
    ensures var r := ApplyEffect(t, e, now);
            !Overflows(t, e)
            && Db.Balance(r.users, e.user) == Db.Balance(t.users, e.user) - e.amount >= 0
            && r.history[|t.history|].amount == Some(-e.amount)
  {
  }

  /**
   * A successful "вручить" credits exactly the number written after the
   * keyword, unless the sum leaves the INTEGER range, in which case the
   * store keeps the old balance.
   */
  lemma GiveCreditsExactly(msg: Message, botId: int, t: Db.Tables, now: int)
    requires Db.TablesOk(t)
    requires Decide(msg, botId, t.users).Credit?
    ensures var e := Decide(msg, botId, t.users);
            var r := ApplyEffect(t, e, now);
            Text.ParseAmount(GIVE, Text.Strip(msg.text)) == Some(e.amount)
            && Db.Balance(r.users, e.user)
               == if Overflows(t, e) then Db.Balance(t.users, e.user) else Db.Balance(t.users, e.user) + e.amount
  {
    CreditAdds(t, Decide(msg, botId, t.users), now);
  }

  lemma CreditAdds(t: Db.Tables, e: Effect, now: int)
    requires Db.TablesOk(t)
    requires e.Credit? && e.amount > 0
    ensures var r := ApplyEffect(t, e, now);
            Db.Balance(r.users, e.user)
            == if Overflows(t, e) then Db.Balance(t.users, e.user) else Db.Balance(t.users, e.user) + e.amount
  {
  }

  /** A message from an author with neither a key nor the curator's id leaves the store as it was. */
  lemma UnprivilegedCannotWrite(msg: Message, botId: int, t: Db.Tables, now: int)
    requires msg.author != KURATOR_ID && !Db.HasKeyIn(t.users, msg.author)
    ensures ApplyEffect(t, Decide(msg, botId, t.users), now) == t
  {
  }

  // ----- Whole messages -----

  /** A text already lower-case and without surrounding whitespace is routed as written. */
  lemma NormalizeKeeps(s: string)
    requires Text.IsLowerWord(s)
    requires s != [] ==> !Text.IsSpace(s[0]) && !Text.IsSpace(s[|s| - 1])
    ensures Normalize(s) == s
  {
    Text.StripKeepsTrimmed(s);
  }

  /** "keyword N", for a lower-case keyword and N >= 0, is routed as written and begins with "keyword ". */
  lemma AmountTextIsNormal(kw: string, n: nat)
    requires Text.IsLowerWord(kw) && kw != [] && !Text.IsSpace(kw[0])
    ensures var s := kw + (" " + Text.ShowInt(n));
            Normalize(s) == s && Text.Strip(s) == s && Text.StartsWith(s, kw + " ")
  {
    var digits := Text.ShowInt(n);
    var s := kw + (" " + digits);
    assert digits == Text.ShowNat(n);
    DigitsAreLower(digits);
    LowerJoin(" ", digits);
    LowerJoin(kw, " " + digits);
    assert s[0] == kw[0];
    assert s[|s| - 1] == digits[|digits| - 1];
    assert s[..|kw| + 1] == kw + " ";
    NormalizeKeeps(s);
  }

  lemma DigitsAreLower(s: string)
    requires Text.AllDigits(s)
    ensures Text.IsLowerWord(s)
    ensures s != [] ==> !Text.IsSpace(s[|s| - 1])
  {
  }

  lemma LowerJoin(a: string, b: string)
    requires Text.IsLowerWord(a) && Text.IsLowerWord(b)
    ensures Text.IsLowerWord(a + b)
  {
    forall i | 0 <= i < |a + b|
      ensures !Text.IsUpper((a + b)[i])
    {
      if i < |a| {
        assert (a + b)[i] == a[i];
      } else {
        assert (a + b)[i] == b[i - |a|];
      }
    }
  }

  /** `Decide` on a message that `Dispatch` sends to `c`. */
  lemma DecideVia(msg: Message, botId: int, users: map<int, Db.UserRow>, c: Command)
    requires msg.text != "" && msg.author != botId
    requires Dispatch(msg.text, Normalize(msg.text), msg.author, Db.HasKeyIn(users, msg.author), msg.replyTo.Some?) == c
    ensures Decide(msg, botId, users) == Guard(c, msg, TargetBalance(msg, users))
  {
  }

  /**
   * A text that starts with "вручить " or "взыскать " and is routed as
   * written reaches its key-tier handler when the curator or a key holder
   * sends it in reply to `target`.
   */
  lemma AmountDecides(raw: string, author: int, botId: int, target: int, photo: Option<string>,
                      users: map<int, Db.UserRow>)
    requires author != botId && (author == KURATOR_ID || Db.HasKeyIn(users, author))
    requires raw != [] && raw[0] == 'в' && Normalize(raw) == raw
    requires KeyRoute(raw) != Ignore
    ensures Decide(Message(raw, author, Some(target), photo), botId, users)
            == Handle(KeyRoute(raw), raw, photo, target, Db.Balance(users, target))
  {
    var msg := Message(raw, author, Some(target), photo);
    assert PublicRoute(raw, true) == Ignore;
    DecideVia(msg, botId, users, KeyRoute(raw));
  }

  /** A give text the guard accepts, routed as written, credits the amount. */
  lemma GiveDecides(raw: string, author: int, botId: int, target: int, photo: Option<string>,
                    users: map<int, Db.UserRow>, n: int)
    requires author != botId && (author == KURATOR_ID || Db.HasKeyIn(users, author))
    requires raw != [] && raw[0] == 'в' && Normalize(raw) == raw && KeyRoute(raw) == Give
    requires GiveVerdict(Text.Strip(raw)) == Accepted(n)
    ensures Decide(Message(raw, author, Some(target), photo), botId, users) == Credit(target, n)
  {
    AmountDecides(raw, author, botId, target, photo, users);
  }

  /** A collect text for `n`, routed as written, debits `n` exactly when the balance covers it. */
  lemma CollectDecides(raw: string, author: int, botId: int, target: int, photo: Option<string>,
                       users: map<int, Db.UserRow>, n: int)
    requires author != botId && (author == KURATOR_ID || Db.HasKeyIn(users, author))
    requires raw != [] && raw[0] == 'в' && Normalize(raw) == raw && KeyRoute(raw) == Collect
    requires var balance := Db.Balance(users, target);
             CollectVerdict(raw, balance) == if n <= balance then Accepted(n) else Insufficient(balance)
    ensures Decide(Message(raw, author, Some(target), photo), botId, users)
            == if n <= Db.Balance(users, target) then Debit(target, n) else NoEffect
  {
    AmountDecides(raw, author, botId, target, photo, users);
  }

  /** "вручить N" for a positive N: routed as written, to `Give`, and accepted with amount N. */
  lemma GiveText(n: int)
    requires n > 0
    ensures var raw := GIVE + (" " + Text.ShowInt(n));
            raw != [] && raw[0] == 'в' && Normalize(raw) == raw && KeyRoute(raw) == Give
            && GiveVerdict(Text.Strip(raw)) == Accepted(n)
  {
    var raw := GIVE + (" " + Text.ShowInt(n));
    KeywordsAreLower();
    AmountTextIsNormal(GIVE, n);
    assert GIVE + " " == "вручить ";
    assert raw[0] == 'в';
    GiveWrittenAmount(n, []);
    assert Text.ShowInt(n) + [] == Text.ShowInt(n);
  }

  /**
   * End to end: "вручить N" from the curator or a key holder, in reply to
   * `target`, credits N to `target` for every positive N.
   */
  lemma GiveFromKeyHolder(author: int, botId: int, target: int, n: int, photo: Option<string>, users: map<int, Db.UserRow>)
    requires author != botId && (author == KURATOR_ID || Db.HasKeyIn(users, author))
    requires n > 0
    ensures Decide(Message(GIVE + (" " + Text.ShowInt(n)), author, Some(target), photo), botId, users) == Credit(target, n)
  {
    GiveText(n);
    GiveDecides(GIVE + (" " + Text.ShowInt(n)), author, botId, target, photo, users, n);
  }

  /**
   * "взыскать N" for a positive N: routed as written, to `Collect`, and
   * accepted with amount N exactly when the balance covers it.
   */
  lemma CollectText(n: int, balance: int)
    requires n > 0
    ensures var raw := COLLECT + (" " + Text.ShowInt(n));
            raw != [] && raw[0] == 'в' && Normalize(raw) == raw && KeyRoute(raw) == Collect
            && CollectVerdict(raw, balance) == if n <= balance then Accepted(n) else Insufficient(balance)
  {
    var raw := COLLECT + (" " + Text.ShowInt(n));
    KeywordsAreLower();
    AmountTextIsNormal(COLLECT, n);
    assert COLLECT + " " == "взыскать ";
    CollectIsNotGive(raw);
    CollectWrittenAmount(n, balance, []);
    assert Text.ShowInt(n) + [] == Text.ShowInt(n);
  }

  /** A text that starts with "взыскать " goes to `Collect` in the key tier. */
  lemma CollectIsNotGive(text: string)
    requires Text.StartsWith(text, "взыскать ")
    ensures text[0] == 'в' && KeyRoute(text) == Collect
  {
    assert text[1] == "взыскать "[1];
  }

  /**
   * End to end: "взыскать N" from the curator or a key holder, in reply to
   * `target`, debits N when `target`'s balance covers it and writes nothing
   * otherwise.
   */
  lemma CollectFromKeyHolder(author: int, botId: int, target: int, n: int, photo: Option<string>, users: map<int, Db.UserRow>)
    requires author != botId && (author == KURATOR_ID || Db.HasKeyIn(users, author))
    requires n > 0
    ensures Decide(Message(COLLECT + (" " + Text.ShowInt(n)), author, Some(target), photo), botId, users)
            == if n <= Db.Balance(users, target) then Debit(target, n) else NoEffect
  {
    CollectText(n, Db.Balance(users, target));
    CollectDecides(COLLECT + (" " + Text.ShowInt(n)), author, botId, target, photo, users, n);
  }

  /**
   * A curator's text, routed as written, that no public or key-tier test
   * accepts reaches the curator's handler when it replies to `target`.
   */
  lemma CuratorDecides(raw: string, botId: int, target: int, photo: Option<string>, users: map<int, Db.UserRow>)
    requires KURATOR_ID != botId && raw != [] && Normalize(raw) == raw
    requires PublicRoute(raw, true) == Ignore && KeyRoute(raw) == Ignore
    ensures Decide(Message(raw, KURATOR_ID, Some(target), photo), botId, users)
            == Handle(CuratorRoute(raw, raw, true), raw, photo, target, Db.Balance(users, target))
  {
    DecideVia(Message(raw, KURATOR_ID, Some(target), photo), botId, users, CuratorRoute(raw, raw, true));
  }

  /** "снять роль" goes past the public and key tiers to `RemoveRole`. */
  lemma RemoveRoleText()
    ensures var raw := "снять роль";
            PublicRoute(raw, true) == Ignore && KeyRoute(raw) == Ignore
            && CuratorRoute(raw, raw, true) == RemoveRole
  {
    var raw := "снять роль";
    assert raw[1] == 'н';
  }

  /** "снять роль" is lower-case and trimmed, so it is routed as written. */
  lemma RemoveRoleIsNormal()
    ensures Normalize("снять роль") == "снять роль"
  {
    NormalizeKeeps("снять роль");
  }

  /** End to end: the curator's "снять роль" in reply to `target` clears `target`'s role. */
  lemma RemoveRoleByReply(botId: int, target: int, photo: Option<string>, users: map<int, Db.UserRow>)
    requires KURATOR_ID != botId
    ensures Decide(Message("снять роль", KURATOR_ID, Some(target), photo), botId, users) == ClearRole(target)
  {
    RemoveRoleText();
    RemoveRoleIsNormal();
    CuratorDecides("снять роль", botId, target, photo, users);
  }

  /** "ключ от сейфа" goes past the public and key tiers to `GrantSafeKey`. */
  lemma GrantKeyText()
    ensures var raw := "ключ от сейфа";
            PublicRoute(raw, true) == Ignore && KeyRoute(raw) == Ignore
            && CuratorRoute(raw, raw, true) == GrantSafeKey
  {
    var raw := "ключ от сейфа";
    assert raw[1] == 'л';
  }

  /** "ключ от сейфа" is lower-case and trimmed, so it is routed as written. */
  lemma GrantKeyIsNormal()
    ensures Normalize("ключ от сейфа") == "ключ от сейфа"
  {
    NormalizeKeeps("ключ от сейфа");
  }

  /** End to end: the curator's "ключ от сейфа" in reply to `target` grants `target` a key. */
  lemma GrantKeyByReply(botId: int, target: int, photo: Option<string>, users: map<int, Db.UserRow>)
    requires KURATOR_ID != botId
    ensures Decide(Message("ключ от сейфа", KURATOR_ID, Some(target), photo), botId, users) == GrantKeyTo(target)
  {
    GrantKeyText();
    GrantKeyIsNormal();
    CuratorDecides("ключ от сейфа", botId, target, photo, users);
  }

  /** "снять ключ" goes past the public and key tiers to `RevokeSafeKey`. */
  lemma RevokeKeyText()
    ensures var raw := "снять ключ";
            PublicRoute(raw, true) == Ignore && KeyRoute(raw) == Ignore
            && CuratorRoute(raw, raw, true) == RevokeSafeKey
  {
    var raw := "снять ключ";
    assert raw[0] == 'с' && raw[1] == 'н' && raw[6] == 'к';
    assert raw != "снять роль";
  }

  /** "снять ключ" is lower-case and trimmed, so it is routed as written. */
  lemma RevokeKeyIsNormal()
    ensures Normalize("снять ключ") == "снять ключ"
  {
    NormalizeKeeps("снять ключ");
  }

  /** End to end: the curator's "снять ключ" in reply to `target` revokes `target`'s key. */
  lemma RevokeKeyByReply(botId: int, target: int, photo: Option<string>, users: map<int, Db.UserRow>)
    requires KURATOR_ID != botId
    ensures Decide(Message("снять ключ", KURATOR_ID, Some(target), photo), botId, users) == RevokeKeyFrom(target)
  {
    RevokeKeyText();
    RevokeKeyIsNormal();
    CuratorDecides("снять ключ", botId, target, photo, users);
  }

  /** "обнулить баланс" goes past the public and key tiers to `ResetBalance`. */
  lemma ResetOneText()
    ensures var raw := "обнулить баланс";
            PublicRoute(raw, true) == Ignore && KeyRoute(raw) == Ignore
            && CuratorRoute(raw, raw, true) == ResetBalance
  {
    var raw := "обнулить баланс";
    assert raw[0] == 'о' && raw[9] == 'б';
    assert raw[..|raw|] == raw;
  }

  /** "обнулить баланс" is lower-case and trimmed, so it is routed as written. */
  lemma ResetOneIsNormal()
    ensures Normalize("обнулить баланс") == "обнулить баланс"
  {
    NormalizeKeeps("обнулить баланс");
  }

  /** End to end: the curator's "обнулить баланс" in reply to `target` resets `target`'s balance. */
  lemma ResetOneByReply(botId: int, target: int, photo: Option<string>, users: map<int, Db.UserRow>)
    requires KURATOR_ID != botId
    ensures Decide(Message("обнулить баланс", KURATOR_ID, Some(target), photo), botId, users) == ResetBalanceOf(target)
  {
    ResetOneText();
    ResetOneIsNormal();
    CuratorDecides("обнулить баланс", botId, target, photo, users);
  }

  /** "фото роли" goes past the public and key tiers to `SetRolePhoto`. */
  lemma RolePhotoText()
    ensures var raw := "фото роли";
            PublicRoute(raw, true) == Ignore && KeyRoute(raw) == Ignore
            && CuratorRoute(raw, raw, true) == SetRolePhoto
  {
    var raw := "фото роли";
    assert raw[0] == 'ф';
    assert raw[..|raw|] == raw;
  }

  /** "фото роли" is lower-case and trimmed, so it is routed as written. */
  lemma RolePhotoIsNormal()
    ensures Normalize("фото роли") == "фото роли"
  {
    NormalizeKeeps("фото роли");
  }

  /** End to end: the curator's "фото роли" with a photo, in reply to `target`, sets `target`'s role image. */
  lemma RolePhotoByReply(botId: int, target: int, image: string, users: map<int, Db.UserRow>)
    requires KURATOR_ID != botId
    ensures Decide(Message("фото роли", KURATOR_ID, Some(target), Some(image)), botId, users)
            == SetRolePhotoOf(target, image)
  {
    RolePhotoText();
    RolePhotoIsNormal();
    CuratorDecides("фото роли", botId, target, Some(image), users);
  }

  /** "обнулить балансы" is lower-case and trimmed, so it is routed as written. */
  lemma ResetAllIsNormal()
    ensures Normalize("обнулить балансы") == "обнулить балансы"
  {
    NormalizeKeeps("обнулить балансы");
  }

  /** End to end: the curator's "обнулить балансы", with or without a reply, resets every balance. */
  lemma ResetAllByCurator(botId: int, replyTo: Option<int>, photo: Option<string>, users: map<int, Db.UserRow>)
    requires KURATOR_ID != botId
    ensures Decide(Message("обнулить балансы", KURATOR_ID, replyTo, photo), botId, users) == ResetEveryBalance
  {
    var raw := "обнулить балансы";
    BulkResetDispatch(raw, Db.HasKeyIn(users, KURATOR_ID), replyTo.Some?);
    ResetAllIsNormal();
    DecideVia(Message(raw, KURATOR_ID, replyTo, photo), botId, users, ResetAllBalances);
  }

  /**
   * Apply one effect to the store in place, through the methods of `Db.Club`.
   * `committed` is false only when `change_balance` raises on a number
   * outside the INTEGER range; it is also true for `NoEffect`, where
   * nothing is written.
   */
  method Perform(club: Db.Club, effect: Effect, now: int) returns (committed: bool)
    requires club.Valid()
    modifies club
    ensures club.Valid()
    ensures committed <==> !Overflows(old(club.State()), effect)
    ensures club.State() == ApplyEffect(old(club.State()), effect, now)
  {
    ghost var before := club.State();
    committed := true;
    assert effect.Credit? || effect.Debit? || !Overflows(before, effect);
    match effect {
      case NoEffect =>
      case Credit(u, n) => committed := club.ChangeBalance(u, n, NO_REASON, now);
      case Debit(u, n) => committed := club.ChangeBalance(u, -n, NO_REASON, now);
      case AssignRoleTo(u, name, desc) => club.SetRole(u, Some(name), Some(desc));
      case ClearRole(u) => club.SetRole(u, None, None);
      case GrantKeyTo(u) => club.GrantKey(u);
      case RevokeKeyFrom(u) => club.RevokeKey(u);
      case ResetBalanceOf(u) => club.ResetUserBalance(u);
      case ResetEveryBalance => club.ResetAllBalances();
      case SetRolePhotoOf(u, image) => club.SetRoleImage(u, image);
    }
  }

  /**
   * `handle_message` on a store: look up the author's key, route, read the
   * target's balance when the handler is `handle_otnyat`, run the handler's
   * checks, then perform the one write they allow, if any. `committed` is
   * as in `Perform`: false only when a balance change does not fit an INTEGER.
   */
  method HandleMessage(club: Db.Club, msg: Message, botId: int, now: int) returns (effect: Effect, committed: bool)
    requires club.Valid()
    modifies club
    ensures club.Valid()
    ensures effect == Decide(msg, botId, old(club.users))
    ensures committed <==> !Overflows(old(club.State()), effect)
    ensures club.State() == ApplyEffect(old(club.State()), effect, now)
  {
    var hasKey := club.HasKey(msg.author);
    var command := Route(msg.text, msg.author, botId, hasKey, msg.replyTo.Some?);
    var balance := 0;
    if msg.replyTo.Some? {
      balance := club.GetBalance(msg.replyTo.value);
    }
    effect := Guard(command, msg, balance);
    committed := Perform(club, effect, now);
  }
}

=== FILE: db.dfy ===
/**
 * The club's state store: three SQLite tables held in memory.
 *
 *   users   : user_id -> (balance, key flag)
 *   roles   : user_id -> (role_name, role_desc, role_image), each nullable
 *   history : rows with an AUTOINCREMENT id, appended and never changed
 *
 * Every write of the store is first given as a function from the old
 * tables to the new ones (`ChangeBalanceOp`, `SetRoleOp`, ...) whose
 * contract says what the SQL statement does; the class `Club` then performs
 * the same update in place and promises `State() == XOp(old(State()), ...)`.
 * Reads are functions of the tables, with lemmas relating them to the writes.
 * The clock is an explicit `now`; a history row stores it as `date`.
 */
module Db {
  import opened Wrappers
  import Text

  const CHANGE_BALANCE := "change_balance"
  const PERK_GRANT := "perk_grant"
  const PERK_REVOKE := "perk_revoke"
  const SALARY_CLAIM := "salary_claim"
  /** The perk code salary claims are recorded under unless another is given. */
  const SALARY_CODE := "зп"

  /** The range of an SQLite INTEGER (a signed 64-bit integer). */
  const MIN_INTEGER := -0x8000_0000_0000_0000
  const MAX_INTEGER := 0x7FFF_FFFF_FFFF_FFFF

  /**
   * Python's `sqlite3` binds an `int` parameter only inside the INTEGER
   * range; outside it raises `OverflowError` before the statement runs.
   */
  predicate IsInteger(x: int) {
    MIN_INTEGER <= x <= MAX_INTEGER
  }

  datatype UserRow = UserRow(balance: int, key: int)
  datatype RoleRow = RoleRow(name: Option<string>, desc: Option<string>, image: Option<string>)
  datatype HistoryRow = HistoryRow(
    id: int, user: int, action: string, amount: Option<int>, reason: Option<string>, date: int)
  datatype Tables = Tables(users: map<int, UserRow>, roles: map<int, RoleRow>, history: seq<HistoryRow>)

  // ----- Invariants every write keeps -----

  /** Balances are never negative and fit an INTEGER column, and the key column is 0 or 1. */
  predicate UsersOk(users: map<int, UserRow>) {
    forall u :: u in users ==>
      0 <= users[u].balance <= MAX_INTEGER && (users[u].key == 0 || users[u].key == 1)
  }

  /** History ids are positive and strictly increase along the table. */
  predicate IdsIncreasing(h: seq<HistoryRow>) {
    (forall i :: 0 <= i < |h| ==> h[i].id >= 1)
    && (forall i, j :: 0 <= i < j < |h| ==> h[i].id < h[j].id)
  }

  predicate TablesOk(t: Tables) {
    UsersOk(t.users) && IdsIncreasing(t.history)
  }

  // ----- History -----

  /** The id AUTOINCREMENT gives the next row: one more than the largest id so far. */
  function NextId(h: seq<HistoryRow>): (r: int)
    ensures IdsIncreasing(h) ==> r >= 1 && forall i :: 0 <= i < |h| ==> h[i].id < r
  {
    if h == [] then 1 else h[|h| - 1].id + 1
  }

  /** An insert into `history`: one new row at the end, the earlier rows untouched. */
  function Append(h: seq<HistoryRow>, user: int, action: string, amount: Option<int>,
                  reason: Option<string>, date: int): (r: seq<HistoryRow>)
    ensures |r| == |h| + 1 && r[..|h|] == h
    ensures r[|h|].user == user && r[|h|].action == action && r[|h|].amount == amount
    ensures r[|h|].reason == reason && r[|h|].date == date
    ensures IdsIncreasing(h) ==> IdsIncreasing(r)
    ensures IdsIncreasing(h) ==> forall i :: 0 <= i < |h| ==> h[i].id < r[|h|].id
  {
    h + [HistoryRow(NextId(h), user, action, amount, reason, date)]
  }

  // ----- Balances (db.py get_balance, change_balance, reset_*) -----

  /** `get_balance`: the stored balance, or 0 for a user without a row. */
  function Balance(users: map<int, UserRow>, u: int): (r: int)
    ensures u !in users ==> r == 0
    ensures UsersOk(users) ==> 0 <= r <= MAX_INTEGER
  {
    if u in users then users[u].balance else 0
  }

  /**
   * The balance `change_balance` stores: the old one plus `amount`, floored
   * at zero.
   */
  function Clamped(old_: int, amount: int): (r: int)
    ensures r >= 0 && r >= old_ + amount
    ensures old_ + amount >= 0 ==> r == old_ + amount
    ensures old_ + amount < 0 ==> r == 0
  {
    if old_ + amount < 0 then 0 else old_ + amount
  }

  /**
   * Whether `change_balance` gets past its two writes: the new balance
   * (bound in the UPDATE) and the amount (bound in the history INSERT) must
   * both be INTEGERs. When either is not, `sqlite3` raises, the connection
   * closes without a commit, and nothing of the call is kept.
   */
  predicate ChangeFits(users: map<int, UserRow>, u: int, amount: int) {
    IsInteger(amount) && Clamped(Balance(users, u), amount) <= MAX_INTEGER
  }

  /**
   * `change_balance`: create a missing user with balance 0 and key 0, store
   * `max(0, old + amount)`, and log the requested (unclamped) amount. When
   * the new balance or the amount does not fit an INTEGER the call raises
   * and the store is left as it was.
   */
  function ChangeBalanceOp(t: Tables, u: int, amount: int, reason: string, now: int): (r: Tables)
    ensures !ChangeFits(t.users, u, amount) ==> r == t
    ensures ChangeFits(t.users, u, amount) ==>
              r.roles == t.roles
              && r.users.Keys == t.users.Keys + {u}
              && Balance(r.users, u) == (if Balance(t.users, u) + amount < 0 then 0 else Balance(t.users, u) + amount)
              && r.users[u].key == (if u in t.users then t.users[u].key else 0)
              && r.history == Append(t.history, u, CHANGE_BALANCE, Some(amount), Some(reason), now)
    ensures forall v :: v in t.users && v != u ==> r.users[v] == t.users[v]
    ensures TablesOk(t) ==> TablesOk(r)
  {
    var row := if u in t.users then t.users[u] else UserRow(0, 0);
    if !ChangeFits(t.users, u, amount) then t
    else
      Tables(t.users[u := row.(balance := Clamped(row.balance, amount))], t.roles,
             Append(t.history, u, CHANGE_BALANCE, Some(amount), Some(reason), now))
  }

  /** `reset_user_balance`: an UPDATE, so only an existing row changes, and nothing is logged. */
  function ResetUserBalanceOp(t: Tables, u: int): (r: Tables)
    ensures r.roles == t.roles && r.history == t.history
    ensures r.users.Keys == t.users.Keys
    ensures Balance(r.users, u) == 0
    ensures u in t.users ==> r.users[u] == t.users[u].(balance := 0)
    ensures forall v :: v in t.users && v != u ==> r.users[v] == t.users[v]
    ensures TablesOk(t) ==> TablesOk(r)
  {
    if u in t.users then t.(users := t.users[u := t.users[u].(balance := 0)]) else t
  }

  /** `reset_all_balances`: every balance becomes 0; key flags and the other tables stay. */
  function ResetAllBalancesOp(t: Tables): (r: Tables)
    ensures r.roles == t.roles && r.history == t.history
    ensures r.users.Keys == t.users.Keys
    ensures forall v :: v in t.users ==> r.users[v] == t.users[v].(balance := 0)
    ensures TablesOk(t) ==> TablesOk(r)
  {
    t.(users := map v | v in t.users :: t.users[v].(balance := 0))
  }

  // ----- Roles (db.py set_role, get_role, set_role_image, get_role_with_image) -----

  /**
   * `set_role`: upsert name and description; an existing image is kept,
   * a new row gets a NULL image.
   */
  function SetRoleOp(t: Tables, u: int, name: Option<string>, desc: Option<string>): (r: Tables)
    ensures r.users == t.users && r.history == t.history
    ensures r.roles.Keys == t.roles.Keys + {u}
    ensures r.roles[u].name == name && r.roles[u].desc == desc
    ensures r.roles[u].image == if u in t.roles then t.roles[u].image else None
    ensures forall v :: v in t.roles && v != u ==> r.roles[v] == t.roles[v]
    ensures TablesOk(t) ==> TablesOk(r)
  {
    var image := if u in t.roles then t.roles[u].image else None;
    t.(roles := t.roles[u := RoleRow(name, desc, image)])
  }

  /**
   * `set_role_image`: upsert the image only; an existing name and description
   * are kept, a new row gets NULL for both.
   */
  function SetRoleImageOp(t: Tables, u: int, image: string): (r: Tables)
    ensures r.users == t.users && r.history == t.history
    ensures r.roles.Keys == t.roles.Keys + {u}
    ensures r.roles[u].image == Some(image)
    ensures u in t.roles ==> r.roles[u].name == t.roles[u].name && r.roles[u].desc == t.roles[u].desc
    ensures u !in t.roles ==> r.roles[u].name == None && r.roles[u].desc == None
    ensures forall v :: v in t.roles && v != u ==> r.roles[v] == t.roles[v]
    ensures TablesOk(t) ==> TablesOk(r)
  {
    var row := if u in t.roles then t.roles[u].(image := Some(image)) else RoleRow(None, None, Some(image));
    t.(roles := t.roles[u := row])
  }

  /** `get_role`: name and description of an existing row, None otherwise. */
  function RoleOf(roles: map<int, RoleRow>, u: int): (r: Option<(Option<string>, Option<string>)>)
    ensures r.Some? <==> u in roles
    ensures r.Some? ==> r.value == (roles[u].name, roles[u].desc)
  {
    if u in roles then Some((roles[u].name, roles[u].desc)) else None
  }

  /** What SQLite's `TRIM(x) != ''` tests: some character other than a space (TRIM removes only ' '). */
  predicate NotBlank(s: string) {
    exists i :: 0 <= i < |s| && s[i] != ' '
  }

  /** `get_all_roles`: the users whose role name is not NULL and not blank, with that name. */
  function ListedRoles(roles: map<int, RoleRow>): (r: map<int, string>)
    ensures forall u :: u in r <==> u in roles && roles[u].name.Some? && NotBlank(roles[u].name.value)
    ensures forall u :: u in r ==> r[u] == roles[u].name.value
  {
    map u | u in roles && roles[u].name.Some? && NotBlank(roles[u].name.value) :: roles[u].name.value
  }

  /**
   * Taking a role away with `set_role(u, None, None)` keeps the row and its
   * image but drops the user from the role list; other users stay listed as they were.
   */
  lemma RemovedRoleIsUnlisted(t: Tables, u: int)
    ensures u in SetRoleOp(t, u, None, None).roles
    ensures u in t.roles ==> SetRoleOp(t, u, None, None).roles[u].image == t.roles[u].image
    ensures u !in ListedRoles(SetRoleOp(t, u, None, None).roles)
    ensures forall v :: v != u ==> (v in ListedRoles(t.roles) <==> v in ListedRoles(SetRoleOp(t, u, None, None).roles))
  {
  }

  /** Naming a role that has a visible character lists the user under exactly that name. */
  lemma AssignedRoleIsListed(t: Tables, u: int, name: string, desc: Option<string>)
    requires NotBlank(name)
    ensures var listed := ListedRoles(SetRoleOp(t, u, Some(name), desc).roles);
            u in listed && listed[u] == name
  {
  }

  // ----- Keys (db.py grant_key, revoke_key, has_key) -----

  /** `has_key`: a row exists and its key column is 1. */
  function HasKeyIn(users: map<int, UserRow>, u: int): (r: bool)
    ensures u !in users ==> !r
    ensures UsersOk(users) && u in users ==> (r <==> users[u].key != 0)
  {
    u in users && users[u].key == 1
  }

  /** `grant_key`: create the user with balance 0 and key 1, or set key = 1 keeping the balance. */
  function GrantKeyOp(t: Tables, u: int): (r: Tables)
    ensures r.roles == t.roles && r.history == t.history
    ensures r.users.Keys == t.users.Keys + {u}
    ensures HasKeyIn(r.users, u)
    ensures Balance(r.users, u) == Balance(t.users, u)
    ensures forall v :: v in t.users && v != u ==> r.users[v] == t.users[v]
    ensures TablesOk(t) ==> TablesOk(r)
  {
    var row := if u in t.users then t.users[u].(key := 1) else UserRow(0, 1);
    t.(users := t.users[u := row])
  }

  /** `revoke_key`: an UPDATE, so only an existing row gets key = 0. */
  function RevokeKeyOp(t: Tables, u: int): (r: Tables)
    ensures r.roles == t.roles && r.history == t.history
    ensures r.users.Keys == t.users.Keys
    ensures !HasKeyIn(r.users, u)
    ensures Balance(r.users, u) == Balance(t.users, u)
    ensures forall v :: v in t.users && v != u ==> r.users[v] == t.users[v]
    ensures TablesOk(t) ==> TablesOk(r)
  {
    if u in t.users then t.(users := t.users[u := t.users[u].(key := 0)]) else t
  }

  /** Granting and then revoking a key, for one user, leaves every other user's key status as it was. */
  lemma {:induction false} KeyRoundTrip(t: Tables, u: int)
    ensures HasKeyIn(GrantKeyOp(t, u).users, u)
    ensures !HasKeyIn(RevokeKeyOp(GrantKeyOp(t, u), u).users, u)
    ensures forall v :: v != u ==> HasKeyIn(RevokeKeyOp(GrantKeyOp(t, u), u).users, v) == HasKeyIn(t.users, v)
  {
    var g := GrantKeyOp(t, u);
    var r := RevokeKeyOp(g, u);
    forall v | v != u ensures HasKeyIn(r.users, v) == HasKeyIn(t.users, v) {
      assert v in r.users <==> v in t.users;
      if v in t.users {
        assert r.users[v] == g.users[v] == t.users[v];
      }
    }
  }

  // ----- History queries (db.py get_last_history) -----

  /**
   * `get_last_history`: the rows with the largest ids, largest first, at
   * most `limit` of them (SQLite reads a negative limit as no limit).
   */
  function LastHistory(h: seq<HistoryRow>, limit: int): (r: seq<HistoryRow>)
    ensures |r| == if limit < 0 || limit > |h| then |h| else limit
    ensures forall k :: 0 <= k < |r| ==> r[k] == h[|h| - 1 - k]
    ensures IdsIncreasing(h) ==> forall a, b :: 0 <= a < b < |r| ==> r[a].id > r[b].id
    ensures IdsIncreasing(h) ==> forall i, k :: 0 <= i < |h| - |r| && 0 <= k < |r| ==> h[i].id < r[k].id
  {
    var n := if limit < 0 || limit > |h| then |h| else limit;
    seq(n, k requires 0 <= k < n => h[|h| - 1 - k])
  }

  // ----- Perks (db.py grant_perk, revoke_perk, get_perks) -----

  /**
   * How `get_perks` reads a code: stripped of surrounding whitespace, then
   * lower-cased. The result is a lower-case word with no surrounding
   * whitespace, and empty exactly when the code is all whitespace.
   */
  function NormalizeCode(code: string): (r: string)
    ensures Text.IsLowerWord(r)
    ensures r != [] ==> !Text.IsSpace(r[0]) && !Text.IsSpace(r[|r| - 1])
    ensures r == [] <==> forall i :: 0 <= i < |code| ==> Text.IsSpace(code[i])
  {
    Text.Lower(Text.Strip(code))
  }

  function GrantPerkOp(t: Tables, u: int, code: string, now: int): (r: Tables)
    ensures r.users == t.users && r.roles == t.roles
    ensures r.history == Append(t.history, u, PERK_GRANT, None, Some(code), now)
    ensures TablesOk(t) ==> TablesOk(r)
  {
    t.(history := Append(t.history, u, PERK_GRANT, None, Some(code), now))
  }

  function RevokePerkOp(t: Tables, u: int, code: string, now: int): (r: Tables)
    ensures r.users == t.users && r.roles == t.roles
    ensures r.history == Append(t.history, u, PERK_REVOKE, None, Some(code), now)
    ensures TablesOk(t) ==> TablesOk(r)
  {
    t.(history := Append(t.history, u, PERK_REVOKE, None, Some(code), now))
  }

  /** The code `get_perks` reads from a row: none when NULL or empty, else stripped and lower-cased. */
  function PerkCode(row: HistoryRow): Option<string> {
    if row.reason.None? || row.reason.value == "" then None else Some(NormalizeCode(row.reason.value))
  }

  /** `row` is a grant of the perk `x` to `u` that `get_perks` does not skip. */
  predicate Grants(row: HistoryRow, u: int, x: string) {
    row.user == u && row.action == PERK_GRANT && PerkCode(row) == Some(x)
  }

  /** `row` is a revocation of the perk `x` from `u` that `get_perks` does not skip. */
  predicate Revokes(row: HistoryRow, u: int, x: string) {
    row.user == u && row.action == PERK_REVOKE && PerkCode(row) == Some(x)
  }

  /** One step of the `get_perks` loop: a grant adds the code, a revocation discards it. */
  function ReplayPerk(perks: set<string>, row: HistoryRow, u: int): (r: set<string>)
    ensures forall x :: x in r <==> Grants(row, u, x) || (x in perks && !Revokes(row, u, x))
  {
    if row.user != u || row.reason.None? || row.reason.value == "" then perks
    else if row.action == PERK_GRANT then perks + {NormalizeCode(row.reason.value)}
    else if row.action == PERK_REVOKE then perks - {NormalizeCode(row.reason.value)}
    else perks
  }

  /**
   * The perks of `u`: every history row replayed in ascending id order. A
   * perk is only ever held on the strength of some grant row.
   */
  function PerksOf(h: seq<HistoryRow>, u: int): (r: set<string>)
    ensures forall x :: x in r ==> exists i :: 0 <= i < |h| && Grants(h[i], u, x)
  {
    if h == [] then {}
    else
      var p := h[..|h| - 1];
      assert forall i :: 0 <= i < |p| ==> p[i] == h[i];
      ReplayPerk(PerksOf(p, u), h[|h| - 1], u)
  }

  /** Appending a row replays one more step. */
  lemma PerksAfterAppend(h: seq<HistoryRow>, row: HistoryRow, u: int)
    ensures PerksOf(h + [row], u) == ReplayPerk(PerksOf(h, u), row, u)
  {
    assert (h + [row])[..|h|] == h;
  }

  /** The grant at index `i` has not been revoked by any later row. */
  predicate HeldSince(h: seq<HistoryRow>, u: int, x: string, i: int)
    requires 0 <= i < |h|
  {
    Grants(h[i], u, x) && forall j :: i < j < |h| ==> !Revokes(h[j], u, x)
  }

  /** Some grant of `x` to `u` in `h` is still held at the end of `h`. */
  predicate HeldIn(h: seq<HistoryRow>, u: int, x: string) {
    exists i :: 0 <= i < |h| && HeldSince(h, u, x, i)
  }

  /** A grant held after one more row was held before it, and that row does not revoke it. */
  lemma HeldBefore(h: seq<HistoryRow>, p: seq<HistoryRow>, u: int, x: string, i: int)
    requires h != [] && p == h[..|h| - 1] && 0 <= i < |p|
    requires HeldSince(h, u, x, i)
    ensures HeldSince(p, u, x, i) && !Revokes(h[|h| - 1], u, x)
  {
    forall j | i < j < |p| ensures !Revokes(p[j], u, x) {
      assert p[j] == h[j];
    }
  }

  /** A grant held before a row that does not revoke it is still held after that row. */
  lemma HeldAfter(h: seq<HistoryRow>, p: seq<HistoryRow>, u: int, x: string, i: int)
    requires h != [] && p == h[..|h| - 1] && 0 <= i < |p|
    requires HeldSince(p, u, x, i) && !Revokes(h[|h| - 1], u, x)
    ensures HeldSince(h, u, x, i)
  {
    assert h[i] == p[i];
    forall j | i < j < |h| ensures !Revokes(h[j], u, x) {
      if j < |p| {
        assert h[j] == p[j];
        assert !Revokes(p[j], u, x);
      } else {
        assert j == |h| - 1;
      }
    }
  }

  /** After a revocation of `x` from `u`, no grant of `x` to `u` is held. */
  lemma NoneHeldAfterRevoke(h: seq<HistoryRow>, u: int, x: string)
    requires h != [] && Revokes(h[|h| - 1], u, x)
    ensures !HeldIn(h, u, x)
  {
    var n := |h| - 1;
    assert PERK_GRANT[5] != PERK_REVOKE[5];
    forall i | 0 <= i < |h|
      ensures !HeldSince(h, u, x, i)
    {
      if i == n {
        assert !Grants(h[n], u, x);
      } else {
        assert i < n && Revokes(h[n], u, x);
      }
    }
  }

  /** A row that neither grants nor revokes `x` leaves the held grants of `x` as they were. */
  lemma HeldUnchanged(h: seq<HistoryRow>, p: seq<HistoryRow>, u: int, x: string)
    requires h != [] && p == h[..|h| - 1]
    requires !Grants(h[|h| - 1], u, x) && !Revokes(h[|h| - 1], u, x)
    ensures HeldIn(h, u, x) <==> HeldIn(p, u, x)
  {
    if HeldIn(p, u, x) {
      var i :| 0 <= i < |p| && HeldSince(p, u, x, i);
      HeldAfter(h, p, u, x, i);
      assert 0 <= i < |h| && HeldSince(h, u, x, i);
    }
    if HeldIn(h, u, x) {
      var i :| 0 <= i < |h| && HeldSince(h, u, x, i);
      assert i != |h| - 1;
      HeldBefore(h, p, u, x, i);
      assert 0 <= i < |p| && HeldSince(p, u, x, i);
    }
  }

  /**
   * A reference definition of the replay: `u` holds `x` exactly when some
   * grant of `x` to `u` is followed by no revocation of `x` from `u`.
   */
  lemma {:induction false} PerkHeldIff(h: seq<HistoryRow>, u: int, x: string)
    ensures x in PerksOf(h, u) <==> exists i :: 0 <= i < |h| && HeldSince(h, u, x, i)
  {
    if h != [] {
      var n := |h| - 1;
      var p := h[..n];
      PerkHeldIff(p, u, x);
      assert x in PerksOf(h, u) <==> x in ReplayPerk(PerksOf(p, u), h[n], u);
      if Grants(h[n], u, x) {
        assert HeldSince(h, u, x, n);
      } else if Revokes(h[n], u, x) {
        NoneHeldAfterRevoke(h, u, x);
      } else {
        HeldUnchanged(h, p, u, x);
      }
    }
  }

  /**
   * Grant, revoke, grant again: the perk is held, then not, then held again;
   * other perks of the user are untouched by each step.
   */
  lemma {:induction false} GrantRevokeGrant(t: Tables, u: int, code: string, d1: int, d2: int, d3: int)
    requires code != ""
    ensures var t1 := GrantPerkOp(t, u, code, d1);
            var t2 := RevokePerkOp(t1, u, code, d2);
            var t3 := GrantPerkOp(t2, u, code, d3);
            PerksOf(t1.history, u) == PerksOf(t.history, u) + {NormalizeCode(code)}
            && PerksOf(t2.history, u) == PerksOf(t.history, u) - {NormalizeCode(code)}
            && PerksOf(t3.history, u) == PerksOf(t.history, u) + {NormalizeCode(code)}
  {
    var t1 := GrantPerkOp(t, u, code, d1);
    var t2 := RevokePerkOp(t1, u, code, d2);
    var t3 := GrantPerkOp(t2, u, code, d3);
    PerksAfterAppend(t.history, t1.history[|t.history|], u);
    assert t1.history == t.history + [t1.history[|t.history|]];
    PerksAfterAppend(t1.history, t2.history[|t1.history|], u);
    assert t2.history == t1.history + [t2.history[|t1.history|]];
    PerksAfterAppend(t2.history, t3.history[|t2.history|], u);
    assert t3.history == t2.history + [t3.history[|t2.history|]];
  }

  /** A perk row of one user never changes the perks of another. */
  lemma PerkRowsOfOthersIgnored(t: Tables, u: int, v: int, code: string, now: int)
    requires u != v
    ensures PerksOf(GrantPerkOp(t, u, code, now).history, v) == PerksOf(t.history, v)
    ensures PerksOf(RevokePerkOp(t, u, code, now).history, v) == PerksOf(t.history, v)
  {
    var g := GrantPerkOp(t, u, code, now).history;
    var r := RevokePerkOp(t, u, code, now).history;
    assert g == t.history + [g[|t.history|]];
    assert r == t.history + [r[|t.history|]];
    PerksAfterAppend(t.history, g[|t.history|], v);
    PerksAfterAppend(t.history, r[|t.history|], v);
  }

  /** Balance changes are logged in history too, but never change anyone's perks. */
  lemma BalanceChangeKeepsPerks(t: Tables, u: int, amount: int, reason: string, now: int, v: int)
    ensures PerksOf(ChangeBalanceOp(t, u, amount, reason, now).history, v) == PerksOf(t.history, v)
  {
    if ChangeFits(t.users, u, amount) {
      var h := ChangeBalanceOp(t, u, amount, reason, now).history;
      assert h == t.history + [h[|t.history|]];
      PerksAfterAppend(t.history, h[|t.history|], v);
    }
  }

  // ----- Salary cooldown (db.py get_seconds_since_last_salary_claim, record_salary_claim) -----

  /** The rows the cooldown query looks at: salary claims of `u` under `code`. */
  predicate IsClaim(row: HistoryRow, u: int, code: string) {
    row.user == u && row.action == SALARY_CLAIM && row.reason == Some(code)
  }

  /**
   * The row the cooldown query reads: None when no row matches, otherwise
   * the matching row with the largest id.
   */
  function LastClaim(h: seq<HistoryRow>, u: int, code: string): (r: Option<HistoryRow>)
    ensures r.None? <==> forall i :: 0 <= i < |h| ==> !IsClaim(h[i], u, code)
    ensures r.Some? ==> r.value in h && IsClaim(r.value, u, code)
    ensures r.Some? && IdsIncreasing(h) ==>
              forall i :: 0 <= i < |h| && IsClaim(h[i], u, code) ==> h[i].id <= r.value.id
  {
    if h == [] then None
    else if IsClaim(h[|h| - 1], u, code) then Some(h[|h| - 1])
    else
      var p := h[..|h| - 1];
      assert forall i :: 0 <= i < |p| ==> p[i] == h[i];
      LastClaim(p, u, code)
  }

  /**
   * `get_seconds_since_last_salary_claim`: `now` minus the date of the
   * claim with the largest id, or None when there is no claim.
   */
  function SecondsSinceClaim(h: seq<HistoryRow>, u: int, code: string, now: int): (r: Option<int>)
    ensures r.None? <==> forall i :: 0 <= i < |h| ==> !IsClaim(h[i], u, code)
    ensures r.Some? ==> LastClaim(h, u, code).Some? && r.value == now - LastClaim(h, u, code).value.date
    ensures r.Some? && IdsIncreasing(h) ==>
              exists i :: 0 <= i < |h| && IsClaim(h[i], u, code) && r.value == now - h[i].date
                          && forall j :: 0 <= j < |h| && IsClaim(h[j], u, code) ==> h[j].id <= h[i].id
  {
    match LastClaim(h, u, code)
    case None => None
    case Some(row) => Some(now - row.date)
  }

  /**
   * `record_salary_claim`: one `salary_claim` row carrying the amount and
   * the code; an amount outside the INTEGER range raises and nothing is
   * written.
   */
  function RecordSalaryClaimOp(t: Tables, u: int, amount: int, code: string, now: int): (r: Tables)
    ensures r.users == t.users && r.roles == t.roles
    ensures IsInteger(amount) ==> r.history == Append(t.history, u, SALARY_CLAIM, Some(amount), Some(code), now)
    ensures !IsInteger(amount) ==> r == t
    ensures TablesOk(t) ==> TablesOk(r)
  {
    if IsInteger(amount) then t.(history := Append(t.history, u, SALARY_CLAIM, Some(amount), Some(code), now))
    else t
  }

  /**
   * Right after a claim recorded at `d`, the cooldown query measures from
   * `d`; a claim whose amount could not be written changes nothing.
   */
  lemma ClaimRestartsCooldown(t: Tables, u: int, amount: int, code: string, d: int, now: int)
    ensures SecondsSinceClaim(RecordSalaryClaimOp(t, u, amount, code, d).history, u, code, now)
            == if IsInteger(amount) then Some(now - d) else SecondsSinceClaim(t.history, u, code, now)
  {
  }

  /** A claim of another user or under another code leaves the cooldown as it was. */
  lemma {:induction false} OtherClaimKeepsCooldown(t: Tables, u: int, v: int, amount: int, code: string, other: string, d: int, now: int)
    requires u != v || code != other
    ensures SecondsSinceClaim(RecordSalaryClaimOp(t, v, amount, other, d).history, u, code, now)
            == SecondsSinceClaim(t.history, u, code, now)
  {
    if IsInteger(amount) {
      var h := RecordSalaryClaimOp(t, v, amount, other, d).history;
      assert !IsClaim(h[|h| - 1], u, code);
      assert h[..|h| - 1] == t.history;
    }
  }

  // ----- Selection helper for the ordered queries -----

  lemma Inhabited(s: set<int>)
    requires s != {}
    ensures exists x :: x in s
  {
    if forall x :: x !in s {
      assert false;
    }
  }

  /** An element of `s` with the largest `score`. */
  method PickMax(s: set<int>, score: map<int, int>) returns (best: int)
    requires s != {} && s <= score.Keys
    ensures best in s
    ensures forall x :: x in s ==> score[x] <= score[best]
  {
    Inhabited(s);
    best :| best in s;
    var rest := s - {best};
    while rest != {}
      invariant rest <= s && best in s
      invariant forall x :: x in s && x !in rest ==> score[x] <= score[best]
      decreases |rest|
    {
      Inhabited(rest);
      var x :| x in rest;
      if score[x] > score[best] {
        best := x;
      }
      rest := rest - {x};
    }
  }

  /** The user ids in a result of `get_top_users`. */
  function RowIds(rows: seq<(int, int)>): set<int> {
    set k | 0 <= k < |rows| :: rows[k].0
  }

  /** The users `get_top_users` may list: those with a positive balance. */
  function Positive(us: map<int, UserRow>): set<int> {
    set u | u in us && us[u].balance > 0
  }

  /** `rows` pairs positive users of `us` with their balances, richest first, each user once. */
  predicate Ranked(us: map<int, UserRow>, rows: seq<(int, int)>) {
    (forall k :: 0 <= k < |rows| ==>
       rows[k].0 in us && us[rows[k].0].balance == rows[k].1 && rows[k].1 > 0)
    && forall a, b :: 0 <= a < b < |rows| ==> rows[a].1 >= rows[b].1 && rows[a].0 != rows[b].0
  }

  /**
   * The invariant of the selection behind `get_top_users`: `rest` holds the
   * positive users not yet listed, and none of them is richer than a listed one.
   */
  predicate TopSoFar(us: map<int, UserRow>, rest: set<int>, rows: seq<(int, int)>) {
    rest <= Positive(us)
    && (forall u :: u in Positive(us) ==> (u in rest <==> u !in RowIds(rows)))
    && Ranked(us, rows)
    && forall u, k :: u in rest && 0 <= k < |rows| ==> us[u].balance <= rows[k].1
  }

  /** Listing a richest remaining user keeps the invariant. */
  lemma TopStep(us: map<int, UserRow>, rest: set<int>, rows: seq<(int, int)>, best: int)
    requires TopSoFar(us, rest, rows)
    requires best in rest && best in us
    requires forall x :: x in rest ==> x in us && us[x].balance <= us[best].balance
    ensures TopSoFar(us, rest - {best}, rows + [(best, us[best].balance)])
  {
    RowIdsAppend(rows, (best, us[best].balance));
  }

  lemma RowIdsAppend(rows: seq<(int, int)>, row: (int, int))
    ensures forall k :: 0 <= k < |rows| ==> rows[k].0 in RowIds(rows)
    ensures RowIds(rows + [row]) == RowIds(rows) + {row.0}
  {
    var rows' := rows + [row];
    forall v ensures v in RowIds(rows') <==> v in RowIds(rows) || v == row.0 {
      if v == row.0 {
        assert rows'[|rows|].0 == v;
      }
      if v in RowIds(rows) {
        var k :| 0 <= k < |rows| && rows[k].0 == v;
        assert rows'[k].0 == v;
      }
    }
  }

  /** The three tables of the bot's database, updated in place by each operation. */
  class Club {
    var users: map<int, UserRow>
    var roles: map<int, RoleRow>
    var history: seq<HistoryRow>

    ghost function State(): Tables
      reads this
    {
      Tables(users, roles, history)
    }

    ghost predicate Valid()
      reads this
    {
      TablesOk(State())
    }

    /** A freshly created database: three empty tables. */
    constructor ()
      ensures Valid() && State() == Tables(map[], map[], [])
    {
      users, roles, history := map[], map[], [];
    }

    method GetBalance(u: int) returns (b: int)
      requires Valid()
      ensures b == Balance(users, u) && 0 <= b <= MAX_INTEGER
    {
      b := if u in users then users[u].balance else 0;
    }

    /**
     * `ok` is false when `sqlite3` raises because the new balance or the
     * amount is outside the INTEGER range; the uncommitted writes are then
     * rolled back.
     */
    method ChangeBalance(u: int, amount: int, reason: string, now: int) returns (ok: bool)
      requires Valid()
      modifies this
      ensures ok <==> ChangeFits(old(users), u, amount)
      ensures Valid() && State() == ChangeBalanceOp(old(State()), u, amount, reason, now)
    {
      var row := if u in users then users[u] else UserRow(0, 0);
      var newBalance := row.balance + amount;
      if newBalance < 0 {
        newBalance := 0;
      }
      if newBalance > MAX_INTEGER || amount < MIN_INTEGER || amount > MAX_INTEGER {
        return false;
      }
      ok := true;
      users := users[u := row.(balance := newBalance)];
      history := history + [HistoryRow(NextId(history), u, CHANGE_BALANCE, Some(amount), Some(reason), now)];
    }

    method ResetUserBalance(u: int)
      requires Valid()
      modifies this
      ensures Valid() && State() == ResetUserBalanceOp(old(State()), u)
    {
      if u in users {
        users := users[u := users[u].(balance := 0)];
      }
    }

    method ResetAllBalances()
      requires Valid()
      modifies this
      ensures Valid() && State() == ResetAllBalancesOp(old(State()))
    {
      users := map v | v in users :: users[v].(balance := 0);
    }

    method SetRole(u: int, name: Option<string>, desc: Option<string>)
      requires Valid()
      modifies this
      ensures Valid() && State() == SetRoleOp(old(State()), u, name, desc)
    {
      var image := if u in roles then roles[u].image else None;
      roles := roles[u := RoleRow(name, desc, image)];
    }

    method GetRole(u: int) returns (r: Option<(Option<string>, Option<string>)>)
      ensures r == RoleOf(roles, u)
    {
      r := if u in roles then Some((roles[u].name, roles[u].desc)) else None;
    }

    method SetRoleImage(u: int, image: string)
      requires Valid()
      modifies this
      ensures Valid() && State() == SetRoleImageOp(old(State()), u, image)
    {
      if u in roles {
        roles := roles[u := roles[u].(image := Some(image))];
      } else {
        roles := roles[u := RoleRow(None, None, Some(image))];
      }
    }

    method GetRoleWithImage(u: int) returns (r: Option<RoleRow>)
      ensures r.Some? <==> u in roles
      ensures r.Some? ==> r.value == roles[u]
    {
      r := if u in roles then Some(roles[u]) else None;
    }

    method GrantKey(u: int)
      requires Valid()
      modifies this
      ensures Valid() && State() == GrantKeyOp(old(State()), u)
    {
      if u in users {
        users := users[u := users[u].(key := 1)];
      } else {
        users := users[u := UserRow(0, 1)];
      }
    }

    method RevokeKey(u: int)
      requires Valid()
      modifies this
      ensures Valid() && State() == RevokeKeyOp(old(State()), u)
    {
      if u in users {
        users := users[u := users[u].(key := 0)];
      }
    }

    method HasKey(u: int) returns (b: bool)
      ensures b <==> u in users && users[u].key == 1
      ensures b == HasKeyIn(users, u)
    {
      b := u in users && users[u].key == 1;
    }

    method GetLastHistory(limit: int := 5) returns (rows: seq<HistoryRow>)
      ensures rows == LastHistory(history, limit)
    {
      rows := LastHistory(history, limit);
    }

    /**
     * `get_top_users`: users with a positive balance, richest first, at most
     * `limit` of them (no bound when negative); any positive user left out
     * is no richer than every listed one. SQL leaves the order of equal
     * balances open, and so does this method.
     */
    method GetTopUsers(limit: int := 10) returns (rows: seq<(int, int)>)
      ensures forall k :: 0 <= k < |rows| ==>
                rows[k].0 in users && users[rows[k].0].balance == rows[k].1 && rows[k].1 > 0
      ensures forall a, b :: 0 <= a < b < |rows| ==> rows[a].1 >= rows[b].1 && rows[a].0 != rows[b].0
      ensures 0 <= limit ==> |rows| <= limit
      ensures forall u :: u in users && users[u].balance > 0 && u !in RowIds(rows) ==>
                |rows| == limit && forall k :: 0 <= k < |rows| ==> users[u].balance <= rows[k].1
    {
      var us := users;
      var score := map u | u in us :: us[u].balance;
      var rest := Positive(us);
      rows := [];
      while rest != {} && (limit < 0 || |rows| < limit)
        invariant TopSoFar(us, rest, rows)
        invariant 0 <= limit ==> |rows| <= limit
        decreases |rest|
      {
        var best := PickMax(rest, score);
        TopStep(us, rest, rows, best);
        rows := rows + [(best, us[best].balance)];
        rest := rest - {best};
      }
    }

    method GetAllRoles() returns (listed: map<int, string>)
      ensures forall u :: u in listed <==> u in roles && roles[u].name.Some? && NotBlank(roles[u].name.value)
      ensures forall u :: u in listed ==> listed[u] == roles[u].name.value
    {
      listed := ListedRoles(roles);
    }

    /** `get_key_holders`: every user whose key is 1, in ascending id order. */
    method GetKeyHolders() returns (ids: seq<int>)
      ensures forall a, b :: 0 <= a < b < |ids| ==> ids[a] < ids[b]
      ensures forall k :: 0 <= k < |ids| ==> HasKeyIn(users, ids[k])
      ensures forall u :: HasKeyIn(users, u) ==> u in ids
    {
      var us := users;
      var rest := set u | u in us && us[u].key == 1;
      ids := [];
      while rest != {}
        invariant forall u :: u in rest ==> HasKeyIn(us, u)
        invariant forall u :: HasKeyIn(us, u) ==> u in rest || u in ids
        invariant forall k :: 0 <= k < |ids| ==> HasKeyIn(us, ids[k])
        invariant forall a, b :: 0 <= a < b < |ids| ==> ids[a] < ids[b]
        invariant forall u, k :: u in rest && 0 <= k < |ids| ==> ids[k] < u
        decreases |rest|
      {
        var next := PickMax(rest, map u | u in rest :: -u);
        ids := ids + [next];
        rest := rest - {next};
      }
    }

    method GrantPerk(u: int, code: string, now: int)
      requires Valid()
      modifies this
      ensures Valid() && State() == GrantPerkOp(old(State()), u, code, now)
    {
      history := history + [HistoryRow(NextId(history), u, PERK_GRANT, None, Some(code), now)];
    }

    method RevokePerk(u: int, code: string, now: int)
      requires Valid()
      modifies this
      ensures Valid() && State() == RevokePerkOp(old(State()), u, code, now)
    {
      history := history + [HistoryRow(NextId(history), u, PERK_REVOKE, None, Some(code), now)];
    }

    /** `get_perks`: the perk rows of `u` replayed in id order into a set. */
    method GetPerks(u: int) returns (perks: set<string>)
      requires Valid()
      ensures perks == PerksOf(history, u)
      ensures forall x :: x in perks <==> exists i :: 0 <= i < |history| && HeldSince(history, u, x, i)
    {
      perks := {};
      var i := 0;
      while i < |history|
        invariant 0 <= i <= |history|
        invariant perks == PerksOf(history[..i], u)
      {
        var row := history[i];
        if row.user == u && (row.action == PERK_GRANT || row.action == PERK_REVOKE) && row.reason.Some? {
          var code := row.reason.value;
          if code != "" {
            var c := Text.Lower(Text.Strip(code));
            if row.action == PERK_GRANT {
              perks := perks + {c};
            } else {
              perks := perks - {c};
            }
          }
        }
        assert history[..i + 1] == history[..i] + [row];
        PerksAfterAppend(history[..i], row, u);
        i := i + 1;
      }
      assert history[..|history|] == history;
      forall x ensures x in perks <==> exists j :: 0 <= j < |history| && HeldSince(history, u, x, j) {
        PerkHeldIff(history, u, x);
      }
    }

    method GetSecondsSinceLastSalaryClaim(u: int, now: int, code: string := SALARY_CODE) returns (r: Option<int>)
      requires Valid()
      ensures r == SecondsSinceClaim(history, u, code, now)
      ensures r.None? <==> forall i :: 0 <= i < |history| ==> !IsClaim(history[i], u, code)
    {
      r := SecondsSinceClaim(history, u, code, now);
    }

    /** `ok` is false when the amount is outside the INTEGER range and nothing is written. */
    method RecordSalaryClaim(u: int, amount: int, now: int, code: string := SALARY_CODE) returns (ok: bool)
      requires Valid()
      modifies this
      ensures ok <==> IsInteger(amount)
      ensures Valid() && State() == RecordSalaryClaimOp(old(State()), u, amount, code, now)
    {
      if amount < MIN_INTEGER || amount > MAX_INTEGER {
        return false;
      }
      ok := true;
      history := history + [HistoryRow(NextId(history), u, SALARY_CLAIM, Some(amount), Some(code), now)];
    }

    /** `get_known_users`: every user with a row (the order of the SQL result is not modelled). */
    method GetKnownUsers() returns (ids: set<int>)
      ensures forall u :: u in ids <==> u in users
    {
      ids := users.Keys;
    }
  }
}

=== FILE: text.dfy ===
/**
 * The pieces of Python string handling the bot relies on: `str.isspace`
 * (which is also what `\s` matches and what `str.strip()` removes),
 * `str.lower`, `str.startswith`, and the `-?\d+` integer pattern read by
 * `int(...)`.
 */
module Text {
  import opened Wrappers

  /** Python's `str.isspace()` on one character. */
  predicate IsSpace(c: char) {
    var n := c as int;
    n == 0x20 || 0x09 <= n <= 0x0D || 0x1C <= n <= 0x1F || n == 0x85 || n == 0xA0
    || n == 0x1680 || 0x2000 <= n <= 0x200A || n == 0x2028 || n == 0x2029
    || n == 0x202F || n == 0x205F || n == 0x3000
  }

  /** The decimal digits `\d` is taken to match (ASCII only). */
  predicate IsDigit(c: char) {
    '0' <= c <= '9'
  }

  /** Capital letters that `LowerChar` changes: ASCII A-Z and Cyrillic U+0400..U+042F. */
  predicate IsUpper(c: char) {
    'A' <= c <= 'Z' || 0x0400 <= c as int <= 0x042F
  }

  /** Small letters that `UpperChar` changes: ASCII a-z and Cyrillic U+0430..U+045F. */
  predicate IsLowerLetter(c: char) {
    'a' <= c <= 'z' || 0x0430 <= c as int <= 0x045F
  }

  /**
   * Upper-casing of one small letter, the partner `LowerChar` is checked
   * against: a-z to A-Z, а..я (U+0430..U+044F) to А..Я, and ѐ..џ
   * (U+0450..U+045F) to Ѐ..Џ (U+0400..U+040F).
   */
  function UpperChar(c: char): (r: char)
    ensures r == c <==> !IsLowerLetter(c)
    ensures IsLowerLetter(c) ==> IsUpper(r)
  {
    if 'a' <= c <= 'z' then (c as int - 32) as char
    else if 0x0430 <= c as int <= 0x044F then (c as int - 32) as char
    else if 0x0450 <= c as int <= 0x045F then (c as int - 80) as char
    else c
  }

  /**
   * Lower-casing of one character, as `str.lower` does for Latin and basic
   * Cyrillic letters: a capital becomes the small letter that `UpperChar`
   * turns back into it, and every other character is kept.
   */
  function LowerChar(c: char): (r: char)
    ensures r == c <==> !IsUpper(c)
    ensures IsUpper(c) ==> IsLowerLetter(r) && UpperChar(r) == c
    ensures !IsUpper(r)
    ensures IsSpace(r) <==> IsSpace(c)
    ensures IsDigit(r) <==> IsDigit(c)
  {
    if 'A' <= c <= 'Z' then (c as int + 32) as char
    else if 0x0410 <= c as int <= 0x042F then (c as int + 32) as char
    else if 0x0400 <= c as int <= 0x040F then (c as int + 80) as char
    else c
  }

  /** Lower-casing and upper-casing are inverse on the letters each one changes. */
  lemma LowerCharInverse(c: char)
    ensures IsUpper(c) ==> UpperChar(LowerChar(c)) == c
    ensures IsLowerLetter(c) ==> LowerChar(UpperChar(c)) == c
  {
  }

  /** No character of `s` is changed by lower-casing. */
  predicate IsLowerWord(s: string) {
    forall i :: 0 <= i < |s| ==> !IsUpper(s[i])
  }

  /**
   * `str.lower()`: character by character. The result has the same length,
   * no capital letter, whitespace where `s` has it, and is `s` itself when
   * `s` has no capital letter; each character is lower-cased on its own.
   */
  function Lower(s: string): (r: string)
    ensures |r| == |s|
    ensures forall i :: 0 <= i < |s| ==> r[i] == LowerChar(s[i])
    ensures IsLowerWord(r)
    ensures forall i :: 0 <= i < |s| ==> (IsSpace(r[i]) <==> IsSpace(s[i]))
    ensures IsLowerWord(s) ==> r == s
  {
    seq(|s|, i requires 0 <= i < |s| => LowerChar(s[i]))
  }

  /** How many whitespace characters `s` starts with. */
  function LeadingSpaces(s: string): (n: nat)
    ensures n <= |s|
    ensures forall i :: 0 <= i < n ==> IsSpace(s[i])
    ensures n < |s| ==> !IsSpace(s[n])
  {
    if s == [] || !IsSpace(s[0]) then 0 else 1 + LeadingSpaces(s[1..])
  }

  /** How many whitespace characters `s` ends with. */
  function TrailingSpaces(s: string): (n: nat)
    ensures n <= |s|
    ensures forall i :: |s| - n <= i < |s| ==> IsSpace(s[i])
    ensures n < |s| ==> !IsSpace(s[|s| - 1 - n])
  {
    if s == [] || !IsSpace(s[|s| - 1]) then 0 else 1 + TrailingSpaces(s[..|s| - 1])
  }

  /**
   * `str.strip()`: the longest slice of `s` that neither starts nor ends
   * with whitespace, and everything cut off on either side is whitespace.
   */
  function Strip(s: string): (r: string)
    ensures |r| <= |s|
    ensures r == [] <==> forall i :: 0 <= i < |s| ==> IsSpace(s[i])
    ensures r != [] ==> !IsSpace(r[0]) && !IsSpace(r[|r| - 1])
    ensures LeadingSpaces(s) + |r| <= |s|
    ensures r == s[LeadingSpaces(s)..LeadingSpaces(s) + |r|]
    ensures forall i :: 0 <= i < LeadingSpaces(s) ==> IsSpace(s[i])
    ensures forall i :: LeadingSpaces(s) + |r| <= i < |s| ==> IsSpace(s[i])
  {
    var a := LeadingSpaces(s);
    var rest := s[a..];
    rest[..|rest| - TrailingSpaces(rest)]
  }

  /** A text that neither starts nor ends with whitespace is left as it is by `Strip`. */
  lemma {:induction false} StripKeepsTrimmed(s: string)
    requires s != [] ==> !IsSpace(s[0]) && !IsSpace(s[|s| - 1])
    ensures Strip(s) == s
  {
    if s != [] {
      assert LeadingSpaces(s) == 0;
      assert TrailingSpaces(s) == 0;
    }
  }

  /** `str.startswith`. */
  predicate StartsWith(s: string, prefix: string) {
    |prefix| <= |s| && s[..|prefix|] == prefix
  }

  /** `s` begins with the lower-case word `kw`, compared without regard to case (`re.IGNORECASE`). */
  predicate MatchesKeyword(s: string, kw: string) {
    |kw| <= |s| && forall i :: 0 <= i < |kw| ==> LowerChar(s[i]) == kw[i]
  }

  predicate AllDigits(s: string) {
    forall i :: 0 <= i < |s| ==> IsDigit(s[i])
  }

  /** How many decimal digits `s` starts with. */
  function LeadingDigits(s: string): (n: nat)
    ensures n <= |s|
    ensures AllDigits(s[..n])
    ensures n < |s| ==> !IsDigit(s[n])
  {
    if s == [] || !IsDigit(s[0]) then 0
    else
      var m := LeadingDigits(s[1..]);
      assert s[..1 + m] == [s[0]] + s[1..][..m];
      1 + m
  }

  /** The number a string of decimal digits denotes (`int` on digits; leading zeros allowed). */
  function DigitsValue(s: string): nat
    requires AllDigits(s)
  {
    if s == [] then 0 else 10 * DigitsValue(s[..|s| - 1]) + (s[|s| - 1] as int - '0' as int)
  }

  function DigitChar(d: nat): (c: char)
    requires d < 10
    ensures IsDigit(c) && c as int - '0' as int == d
  {
    ('0' as int + d) as char
  }

  /** The decimal representation of `n`, without leading zeros. */
  function ShowNat(n: nat): (s: string)
    ensures s != [] && AllDigits(s)
  {
    if n < 10 then [DigitChar(n)] else ShowNat(n / 10) + [DigitChar(n % 10)]
  }

  /** The decimal representation of `n`, with a leading '-' when negative. */
  function ShowInt(n: int): (s: string)
    ensures s != [] && !IsSpace(s[0])
  {
    if n < 0 then "-" + ShowNat(-n) else ShowNat(n)
  }

  /** Reading back the digits `ShowNat` writes gives the number. */
  lemma {:induction false} ShowNatRoundTrip(n: nat)
    ensures DigitsValue(ShowNat(n)) == n
  {
    if n >= 10 {
      var s := ShowNat(n);
      assert s[..|s| - 1] == ShowNat(n / 10);
      ShowNatRoundTrip(n / 10);
    }
  }

  /** The integer `-?\d+` matches at the start of `t`, or None when it does not match. */
  function ParseLeadingInt(t: string): (r: Option<int>)
    ensures r.None? <==> LeadingDigits(if t != [] && t[0] == '-' then t[1..] else t) == 0
  {
    var negative := t != [] && t[0] == '-';
    var u := if negative then t[1..] else t;
    var n := LeadingDigits(u);
    if n == 0 then None
    else
      var v: int := DigitsValue(u[..n]);
      Some(if negative then -v else v)
  }

  /**
   * The amount pattern of `handle_vruchit` and `handle_otnyat`, matched
   * without regard to case and converted with `int`: the keyword at the
   * very start, at least one whitespace character, then an optionally
   * negative integer; anything after it is ignored.
   */
  function ParseAmount(kw: string, s: string): (r: Option<int>)
    ensures r.Some? ==> MatchesKeyword(s, kw) && LeadingSpaces(s[|kw|..]) > 0
  {
    if !MatchesKeyword(s, kw) then None else ParseSpacedInt(s[|kw|..])
  }

  /** `\s+(-?\d+)` at the start of `s`. */
  function ParseSpacedInt(s: string): (r: Option<int>)
    ensures r.Some? ==> LeadingSpaces(s) > 0
  {
    var w := LeadingSpaces(s);
    if w == 0 then None else ParseLeadingInt(s[w..])
  }

  lemma {:induction false} LeadingDigitsOfShown(ds: string, rest: string)
    requires ds != [] && AllDigits(ds)
    requires rest == [] || !IsDigit(rest[0])
    ensures LeadingDigits(ds + rest) == |ds|
    ensures (ds + rest)[..|ds|] == ds
  {
    if |ds| > 1 {
      assert (ds + rest)[1..] == ds[1..] + rest;
      LeadingDigitsOfShown(ds[1..], rest);
    } else {
      assert (ds + rest)[1..] == rest;
    }
  }

  lemma {:induction false} LeadingSpacesOfSeparated(sep: string, t: string)
    requires forall i :: 0 <= i < |sep| ==> IsSpace(sep[i])
    requires t != [] && !IsSpace(t[0])
    ensures LeadingSpaces(sep + t) == |sep|
    ensures (sep + t)[|sep|..] == t
  {
    if sep != [] {
      assert (sep + t)[1..] == sep[1..] + t;
      LeadingSpacesOfSeparated(sep[1..], t);
    } else {
      assert sep + t == t;
    }
  }

  /** A lower-case keyword matches itself at the start of any text. */
  lemma KeywordMatchesItself(kw: string, body: string)
    requires IsLowerWord(kw)
    ensures MatchesKeyword(kw + body, kw)
    ensures (kw + body)[|kw|..] == body
  {
    var s := kw + body;
    forall i | 0 <= i < |kw| ensures LowerChar(s[i]) == kw[i] {
      assert s[i] == kw[i];
    }
  }

  /** An integer written by `ShowInt` and followed by a non-digit is read back by `ParseLeadingInt`. */
  lemma ParseLeadingIntRoundTrip(n: int, rest: string)
    requires rest == [] || !IsDigit(rest[0])
    ensures ParseLeadingInt(ShowInt(n) + rest) == Some(n)
  {
    var t := ShowInt(n) + rest;
    var digits := ShowNat(if n < 0 then -n else n);
    var u := if t != [] && t[0] == '-' then t[1..] else t;
    if n < 0 {
      assert t == "-" + (digits + rest);
      assert u == digits + rest;
    } else {
      assert IsDigit(digits[0]);
      assert u == digits + rest;
    }
    LeadingDigitsOfShown(digits, rest);
    ShowNatRoundTrip(if n < 0 then -n else n);
  }

  /**
   * Round trip: the keyword, some whitespace, an integer written in decimal
   * and any text that does not continue the number is read back as that integer.
   */
  lemma {:induction false} ParseAmountRoundTrip(kw: string, sep: string, n: int, rest: string)
    requires IsLowerWord(kw)
    requires sep != [] && forall i :: 0 <= i < |sep| ==> IsSpace(sep[i])
    requires rest == [] || !IsDigit(rest[0])
    ensures ParseAmount(kw, kw + (sep + (ShowInt(n) + rest))) == Some(n)
  {
    var body := sep + (ShowInt(n) + rest);
    KeywordMatchesItself(kw, body);
    LeadingSpacesOfSeparated(sep, ShowInt(n) + rest);
    ParseLeadingIntRoundTrip(n, rest);
  }
}

=== FILE: wrappers.dfy ===
/** A value that may be missing: SQL's NULL, Python's None. */
module Wrappers {
  datatype Option<+T> = None | Some(value: T)
}
